=== FILE: README.md ===
# Screenshot to ChatGPT — a Dafny model of the capture-and-deliver core

The extension captures the visible tab or the selected text and hands it to
a ChatGPT tab. It has three parts, each modelled here:

- **The background coordinator** (`background.js`). It routes keyboard
  commands and control-panel requests to the two capture entry points,
  captures the payload, and finds or opens the chat tab. It makes sure the
  page adapter answers, then delivers the payload with up to three
  attempts.
- **The page adapter** (`contentScript.js`). Its message listener answers
  pings, queues screenshots in persistent storage and drains them one at a
  time. It also inserts text into the chat input through a chain of three
  strategies, and finds the attachment button, file input, input field and
  send button by trying selector lists in order.
- **The control panel** (`popup.js`). It reads its controls into a
  settings record, saves and loads that record, and formats shortcut
  strings for display.

Everything the browser decides is an input to the model: DOM queries,
Chrome API results, ping, send and injection outcomes, and tab-update
notifications. A polling loop is a sequence of snapshots, one per poll.
What the coordinator does is recorded as a log of `Action`s. The queue
drain is split at its one `await` into `ProcessQueue` (up to the upload)
and `FinishDrain` (after it), so that other events can arrive in between.

Modules, one per file:

- `Wrappers`: `Option` and grid positions.
- `Text`: the string operations the code uses: `indexOf`, `includes`,
  `replace` with a string pattern, `substring`, `trim`, ASCII
  `toLowerCase`. A string is a sequence of code points, so positions and
  lengths count code points where JavaScript counts UTF-16 units.
- `Search`: the generic first-match search that every selector list uses.
- `Protocol`: settings, message kinds and responses.
- `Pickers`: the element finders.
- `Insertion`: text delivery.
- `Upload`: screenshot upload.
- `Adapter`: the listener and the queue.
- `Orchestrator`: tab handling.
- `Coordinator`: capture, retry and dispatch.
- `Popup`: the control panel.

## Model

| member | source | states |
|---|---|---|
| Adapter.HandleMessage | contentScript.js:12-29 | A ping gets "ready" and changes nothing. A screenshot with a truthy data URL is appended to the stored queue and gets "queued", and a drain starts unless one is running. Truthy text gets "text queued" and starts exactly one text job without touching the queue. Anything else gets no response. Settings are replaced wholesale, and only by an accepted non-ping message that carries them. The drain invariant is preserved. |
| Adapter.ProcessQueue | contentScript.js:38-43 | Does nothing while uploading or when the queue is empty. Otherwise it raises the flag and splits a copy of the queue into head and rest, leaving storage untouched. It preserves the invariant that the item in flight is still the stored head. |
| Adapter.EnqueueScreenshot | contentScript.js:31-36 | Appends the data URL to the stored queue. A running drain is left alone; otherwise a drain starts on the stored head. The invariant is preserved. |
| Adapter.FinishDrain | contentScript.js:49-66 | After an upload settles, the flag is down and another drain is scheduled exactly when the written queue is non-empty. It re-establishes the invariant. |
| Adapter.DrainStep | contentScript.js:38-66 | With nothing arriving during the upload, a success leaves the tail of the queue. A failure leaves the whole queue with the failed item back at its head. Another drain is scheduled exactly when items remain. |
| Adapter.AsWrittenStoresSnapshot | contentScript.js:40-62 | As written, the queue stored after an upload is the drain's own pre-upload copy (tail on success, head + tail on failure), whatever storage holds by then. |
| Adapter.AsWrittenLosesLateEnqueue | contentScript.js:31-62 | As written, a screenshot queued while an upload is in flight is in storage, then gone once that upload settles, whatever the outcome. |
| Adapter.FailedHeadRetriedFirst | contentScript.js:56-65 | A failed item is back at the head, a new drain is scheduled, and that drain uploads the same item first. |
| Adapter.MergedConservesQueue | contentScript.js:31-66 | With the corrected write-back, over any sequence of messages, settlements and timer ticks, delivered followed by still-stored equals initially-stored followed by everything enqueued, in order. |
| Adapter.LateEnqueueExample | contentScript.js:31-66 | Concrete run: "a" is queued, "b" arrives during a's upload, and the upload succeeds. As written the queue ends empty and "b" is never delivered; corrected, "b" is still queued. |
| Adapter.SettingsKeptWithoutSettings | contentScript.js:19-25 | Events whose messages carry no settings never change the page adapter's settings. |
| Coordinator.PageKeepsDefaults | background.js:60-64 | A page adapter that hears only the coordinator's messages (its pings, screenshots and texts) keeps its default settings for good, because those messages never carry settings. |
| Coordinator.Deliver | background.js:54-81 | At most three sends, stopping at the first success. It succeeds iff one of the first three sends succeeds, and fails only after three sends. Every send is preceded by as many presence checks as earlier sends, and by at least 1 s of waiting per earlier send, and the log ends with a send. No tab is created or activated. Every send is the same message to the same tab. |
| Coordinator.CaptureAndSendScreenshot | background.js:29-85 | No active tab: nothing happens. A failed capture stops before any tab lookup. Otherwise the report is "no target tab" iff acquisition yields no tab, and else concerns the acquired tab. It is a success iff one of the first three sends succeeds, and then names the first successful attempt. Pings equal sends, plus one when an existing tab was checked but its activation was rejected. A tab is created (once) iff none was open, and every send carries the captured image and no settings. |
| Coordinator.SelectedText | background.js:102-107 | The selection is trimmed. It counts as absent iff there was no result or every character is whitespace; a present selection is the non-empty trimmed text. |
| Coordinator.CaptureAndSendText | background.js:87-149 | No active tab: nothing happens. An empty or blank selection stops after reading it, before any tab is looked for, pinged or created. Otherwise the report follows acquisition and the send outcomes exactly as for screenshots, and every message carries the trimmed selection. |
| Coordinator.Acquire | background.js:46-50 | Acquiring the tab sends nothing, and pings once unless creating a tab failed. It creates a tab, once, iff none is open on either domain, and keeps what the capture did as a prefix. |
| Coordinator.AcquireAndDeliver | background.js:46-81 | "No target tab" iff acquisition yields none. Otherwise the report names the acquired tab, and is a success iff one of the first three sends succeeds. A success after k attempts means the k-th send succeeded and none before it did. Sends number k on success, three on failure and none without a tab. Pings equal sends, plus one when an existing tab was checked but its activation was rejected. A tab is created (once) iff none was open. |
| Coordinator.OnCommand | background.js:7-14 | "capture-screenshot" starts a screenshot capture and "capture-text" starts a text capture, both with reason "keyboard shortcut". Every other command starts nothing. |
| Coordinator.OnRuntimeMessage | background.js:16-27 | CAPTURE_SCREENSHOT and CAPTURE_TEXT start the matching capture with reason "popup button", and a response is sent exactly when a capture starts. Other requests get nothing. |
| Orchestrator.QueryTargetTabs | background.js:151-155 | The query result holds exactly the open tabs on either domain. |
| Orchestrator.QueryFirst | background.js:153-160 | The tab used is the first open tab on either domain in browser order. The query is empty iff there is no such tab. |
| Orchestrator.EnsureChatGptTab | background.js:151-170 | An existing tab is checked, then activated, and nothing is created; a rejected activation yields no tab. With no such tab, exactly one is created in the foreground (`active: true`) at the fixed address. It is awaited, followed by a 2 s pause if a "complete" update arrived, and then that tab is checked, with no separate activation. A failed creation logs only the creation. Exactly one ping happens unless creation failed, and no message is sent. |
| Orchestrator.EnsureContentScriptInjected | background.js:172-195 | One ping, and an unanswered ping is followed by exactly one injection. An answered ping is all there is. It never sends, creates or activates. |
| Orchestrator.InjectionSettles | background.js:175-193 | The check waits 1 s exactly when the ping failed and the injection succeeded. A failed injection is swallowed without waiting. |
| Orchestrator.WaitForTabLoad | background.js:197-214 | Ends at the first "complete" notification for that tab. It times out iff none arrives, and never fails. |
| Pickers.FindAttachmentButton | contentScript.js:189-208 | Returns the first of the five selectors that matches, and none iff none matches. The fourth selector returns the paperclip `svg`, not a button. |
| Pickers.FindFileInput | contentScript.js:210-232 | Returns a result iff some poll sees a file input. It uses the first poll that sees any, and in it the first input whose `accept` mentions "image", else the first input. |
| Pickers.FindInputField | contentScript.js:481-509 | Returns the first visible match in poll, then selector, order, and none iff no poll sees one. |
| Pickers.ClickSendButton | contentScript.js:511-568 | Clicks the first usable send-looking match in selector, then element, order, iff there is one. That click throws exactly when the match has no `click` method, as the `svg` icons the sixth selector matches do. Otherwise it clicks the first usable button with an icon in the form. Nothing is clicked iff both searches fail. These facts together pin the outcome (`SendClickSpec`). |
| Pickers.SendClickDetermined | contentScript.js:511-568 | The page fixes what pressing send does: any two outcomes satisfying `SendClickSpec` are equal. |
| Search.FirstIndex | contentScript.js:199-207 | Returns the first index whose element satisfies the predicate, and none iff no element does. |
| Search.Scan | contentScript.js:481-509 | Finds nothing iff no cell satisfies the predicate. A found position is the first in row-major order. |
| Insertion.CurrentText | contentScript.js:370 | The readout is one of the three fields: `value` when non-empty, else `innerText` when non-empty, else `textContent`. An empty readout means `value` and `innerText` were both empty. |
| Insertion.VerifiedMeaning | contentScript.js:348-379 | A checked strategy succeeds iff nothing threw and the field content contains the first 20 code points of the text (all of a shorter text) as a contiguous piece. |
| Insertion.TryValueSetter | contentScript.js:439-479 | A text control gets the textarea `value` setter when there is one, else the input one. The strategy succeeds iff nothing threw and that setter belongs to the field's kind, so an input field with the textarea setter fails. A field where no setter is called succeeds iff it is editable. The content is not checked. |
| Insertion.Attempted | contentScript.js:314-327 | The strategies are tried in the fixed order paste, direct input, value setter. Strategy j runs iff all before it failed, and the last one tried succeeded iff some strategy succeeds. |
| Insertion.SendTextToChatGPT | contentScript.js:290-346 | The field is chosen as by `FindInputField`. With no field, no strategy runs and nothing is sent. Send is pressed iff a field was found and auto-send is on, and what the press does is the one outcome `ClickSendButton` allows for the page. Notices appear only when enabled: "sending", then "sent" whenever a field was found and the send click did not throw. A thrown send click gives the failure notice with the error's message, and a missing field gives the failure notice naming the input field. |
| Upload.UploadScreenshot | contentScript.js:103-187 | A failed file conversion ends the upload with an error. When the attachment element found has no `click` method (an `svg`, such as the paperclip icon), the click throws and nothing else is tried. Otherwise a file input, when one is found, is always used. Otherwise drop targets are tried in order and the first that shows a preview is used. The upload is unsupported iff there is no input and no target works. Send is pressed iff auto-send is on, and what the press does is the one outcome `ClickSendButton` allows for the page. The upload resolves iff the file was handed over and no click threw. |
| Popup.GetSettings | popup.js:89-96 | Each missing control yields its default. Present controls yield their state, and the URL select its value. |
| Popup.SaveSettings | popup.js:98-101 | Every field of the stored record is present, and once read back with defaults it is exactly what the controls show. |
| Popup.WithDefaults | popup.js:103-106 | Nothing stored yields the defaults. Each field present in the record is taken as stored, and each missing one takes its default. A complete stored record comes back unchanged. |
| Popup.LoadSettings | popup.js:103-112 | Only controls that exist are written. Each checkbox shows the stored value, or its default when the field is missing. The select keeps its options and reads the stored address when it is among them, or "" when it is not. |
| Popup.SetSelectValue | popup.js:110 | Assigning a select's value picks the matching option. A value with no option leaves the select reading "". |
| Popup.LoadThenGet | popup.js:89-112 | With all controls present and the stored URL among the options, loading and then reading back gives the stored settings completed with defaults. |
| Popup.SaveThenLoad | popup.js:89-112 | Saving then loading into the same controls reads back the same settings. |
| Popup.FormatSkipsCtrl | popup.js:130-138 | The "Ctrl"→"Ctrl" step is the identity, so formatting is the other four replacements. |
| Popup.FormatLeavesPlainText | popup.js:130-138 | A shortcut with none of the replaced names and no "+" is shown unchanged. |
| Popup.FormatCtrlShiftS | popup.js:130-138 | "Ctrl+Shift+S" is shown as "Ctrl + ⇧+S": each replacement hits only its first occurrence, so the second "+" is not spaced. |
| Text.IndexOf | contentScript.js:371 | Returns the first position where the needle occurs, and none iff it occurs nowhere. |
| Text.Prefix | contentScript.js:371 | `substring(0, n)`: the first n code points, or the whole string when it is shorter. |
| Text.ReplaceFirst | popup.js:133-137 | Without an occurrence the string is unchanged. Otherwise exactly the first occurrence is replaced, by the replacement taken literally. |
| Text.TrimSpec | background.js:102 | Trimming yields "" iff every character is whitespace. Otherwise neither end is whitespace, and the result is a contiguous slice of the input. |

## Left out

- DOM effects (focus, events dispatched, clipboard writes, file objects), notification rendering and console output are not modelled. Each strategy and finder sees only what it observes afterwards.
- Timing is not modelled: timeouts, sleeps, `waitForForm` and `waitForImageUpload`. A polling loop is the finite list of snapshots seen before its timeout, and waits the code makes appear only as `Wait` log entries.
- Chrome APIs and the browser are inputs: tab queries, capture, tab creation and activation outcomes, script execution, `sendMessage` outcomes, storage reads, tab updates. This includes `dataUrlToFile`, whose failure is the `fileReady` flag. Storage writes are the exception: they are taken to succeed (see the two lines below).
- Adapter.EnqueueScreenshot: the `localStorage` write is taken to succeed. A write over the storage quota (contentScript.js:34) throws out of the listener before the response and the drain, so nothing is queued; the model does not state this.
- Adapter.FinishDrain: the `localStorage` write is taken to succeed. A write over the quota (contentScript.js:62) throws before the flag is lowered, so the queue never drains again; the model does not state this.
- Concurrency between several background invocations is not modelled, so nothing here claims that two concurrent captures cannot open two tabs; the code has no lock. Within one page adapter, interleaving is modelled only at the queue drain's upload await.
- The `reason` field of coordinator messages is not modelled, because the page adapter never reads it. The capture entry points otherwise only log their reason, so `CaptureAndSendScreenshot` and `CaptureAndSendText` take none; the dispatchers still record it in the `Job` they start.
- The page adapter's `currentSettings` is read once per text job and once per drain. A settings change during an upload is not replayed inside the drain.
- `loadShortcuts` (popup.js:114-128) is left out: it only passes browser-supplied strings to `formatShortcut`.
- `setStatus` and the control panel's event wiring are left out: they are pure DOM.
- Pickers.ClickSendButton: `toLowerCase` is modelled for ASCII letters only.
- Coordinator.Deliver: outcomes beyond the supplied lists default to failure (a failed send; a failed ping and a failed injection). This is a modelling choice for exhausted oracle lists, not a promise of the code.
- Insertion.SendTextToChatGPT: the strategies' DOM work is reduced to their observed outcomes (`TextEnv`). The 100 ms and 500 ms pauses are not modelled.
- Upload.UploadScreenshot: the 300 ms pause after clicking a real attachment button is not modelled. That click's effect on the page reaches the model only through the file-input polls.
- Insertion.VerifiedMeaning: the 20 characters checked are code points, for the reason given under `Text.Prefix`.
- Text.ReplaceFirst: inserts the replacement literally, so it models `replace` only for replacements without `$`, which all the formatting steps use.
- Text.Prefix: counts code points, not UTF-16 code units as `substring` does. A text with characters outside the Basic Multilingual Plane among its first 20 is cut at a different place than in the browser.

Where the code does not do what its own names and comments suggest,
the model follows the code:

- No message the coordinator sends carries settings. The page adapter
  therefore keeps its defaults (`Coordinator.PageKeepsDefaults`), and a new
  tab always opens at `https://chatgpt.com/`, whatever the control panel
  holds, although the panel sends its settings with each capture request
  (popup.js:43-46).
- An existing chat tab is checked first and then switched to
  (background.js:158-159), whatever the switch-tab setting says; a new tab
  is always opened in the foreground.
- After the insertion strategies, the success notice is shown even when all
  three strategies failed.

## Findings

| source | as written | input that shows it | evidently intended | confidence | as-written member | corrected member |
|---|---|---|---|---|---|---|
| contentScript.js:40-62 | The drain reads the stored queue into a local copy before the upload and writes that copy back afterwards, overwriting whatever `enqueueScreenshot` appended during the upload. | Screenshot "a" is queued and its upload starts. Screenshot "b" arrives during the upload. The upload succeeds. Storage ends as `[]` and "b" is never uploaded. | Screenshots queued during an upload stay queued: delivered plus stored equals everything queued, in order. | not executed | Adapter.AsWrittenLosesLateEnqueue | Adapter.MergedConservesQueue |

=== FILE: adapter.dfy ===
/** The page adapter's message listener and its persisted screenshot queue
    (`enqueueScreenshot`, `processQueue`). A drain is split at its one
    suspension point: `ProcessQueue` runs up to the upload await and
    `FinishDrain` runs once the upload settles, so that other events can
    fall in between. */
module Adapter {
  import opened Wrappers
  import opened Protocol

  /** A queued screenshot, kept as an opaque data URL. */
  type DataUrl = string

  /** The local copy a running drain holds between reading the stored queue
      and writing it back: the item it shifted off and what remained. */
  datatype Drain = Drain(head: DataUrl, rest: seq<DataUrl>)

  /** The page adapter's state: the stored queue, the running drain (the
      `uploading` flag is set exactly while there is one) and the current
      settings. */
  datatype Page = Page(stored: seq<DataUrl>, flight: Option<Drain>, settings: Settings)
  {
    predicate Uploading()
    {
      flight.Some?
    }
  }

  /** A freshly loaded page adapter. */
  const Initial := Page([], None, DefaultSettings)

  /** While a drain runs, the item it uploads is still at the head of the
      stored queue: the shift happened on the drain's own copy. */
  predicate Inv(p: Page)
  {
    p.Uploading() ==> p.stored != [] && p.stored[0] == p.flight.value.head
  }

  /** `processQueue` up to the upload await: a no-op while uploading or when
      the stored queue is empty; otherwise it raises the flag and takes the
      head of a copy of the stored queue, leaving storage as it was. */
  function ProcessQueue(p: Page): (r: Page)
    ensures r.stored == p.stored && r.settings == p.settings
    ensures p.Uploading() || p.stored == [] ==> r == p
    ensures !p.Uploading() && p.stored != [] ==>
              r.Uploading() && [r.flight.value.head] + r.flight.value.rest == p.stored
    ensures Inv(r) <== Inv(p)
  {
    if p.Uploading() || p.stored == [] then p
    else p.(flight := Some(Drain(p.stored[0], p.stored[1..])))
  }

  /** `enqueueScreenshot`: append to the stored queue, then start a drain. */
  function EnqueueScreenshot(p: Page, dataUrl: DataUrl): (r: Page)
    ensures r.stored == p.stored + [dataUrl]
    ensures r.settings == p.settings
    ensures p.Uploading() ==> r.flight == p.flight
    ensures !p.Uploading() ==> r.Uploading() && r.flight.value.head == r.stored[0]
    ensures Inv(r) <== Inv(p)
  {
    ProcessQueue(p.(stored := p.stored + [dataUrl]))
  }

  const ReadyResponse := Response("ready")
  const QueuedResponse := Response("queued")
  const TextQueuedResponse := Response("text queued")

  /** The messages the listener acts on; every other message gets no
      response. */
  predicate Accepted(m: Message)
  {
    || m.kind == PingType
    || (m.kind == UploadScreenshotType && Truthy(m.dataUrl))
    || (m.kind == SendTextType && Truthy(m.text))
  }

  /** What the listener did with one message: the new state, the response
      sent (if any), and the text whose delivery it started (if any). */
  datatype Handled = Handled(page: Page, response: Option<Response>, textJob: Option<string>)

  /** The page adapter's `chrome.runtime.onMessage` listener. */
  function HandleMessage(p: Page, m: Message): (h: Handled)
    ensures !Accepted(m) ==> h == Handled(p, None, None)
    ensures m.kind == PingType ==> h == Handled(p, Some(ReadyResponse), None)
    ensures m.kind == UploadScreenshotType && Truthy(m.dataUrl) ==>
              && h.response == Some(QueuedResponse) && h.textJob.None?
              && h.page.stored == p.stored + [m.dataUrl.value]
              && (p.Uploading() ==> h.page.flight == p.flight)
              && (!p.Uploading() ==> h.page.Uploading())
    ensures m.kind == SendTextType && Truthy(m.text) ==>
              && h.response == Some(TextQueuedResponse) && h.textJob == Some(m.text.value)
              && h.page.stored == p.stored && h.page.flight == p.flight
    // settings are replaced wholesale, and only by an accepted message that carries them
    ensures h.page.settings == if Accepted(m) && m.kind != PingType && m.settings.Some? then m.settings.value else p.settings
    ensures Inv(h.page) <== Inv(p)
  {
    if m.kind == PingType then
      Handled(p, Some(ReadyResponse), None)
    else if m.kind == UploadScreenshotType && Truthy(m.dataUrl) then
      var q := if m.settings.Some? then p.(settings := m.settings.value) else p;
      Handled(EnqueueScreenshot(q, m.dataUrl.value), Some(QueuedResponse), None)
    else if m.kind == SendTextType && Truthy(m.text) then
      var q := if m.settings.Some? then p.(settings := m.settings.value) else p;
      Handled(q, Some(TextQueuedResponse), Some(m.text.value))
    else
      Handled(p, None, None)
  }

  /** How a settled upload writes the queue back. `AsWritten` stores the
      drain's own copy; `Merged` is the correction that re-reads storage so
      that items appended meanwhile survive. */
  datatype Policy = AsWritten | Merged

  /** The state after a settled upload, and whether another drain is
      scheduled. */
  datatype Finished = Finished(page: Page, again: bool)

  /** The rest of `processQueue` once the upload settles with outcome `ok`:
      write the queue back, lower the flag, schedule another drain if the
      written queue is non-empty. */
  function FinishDrain(policy: Policy, p: Page, ok: bool): (r: Finished)
    requires p.Uploading()
    ensures !r.page.Uploading() && r.page.settings == p.settings
    ensures r.again <==> r.page.stored != []
    ensures Inv(r.page)
  {
    var d := p.flight.value;
    var queue :=
      match policy
      case AsWritten => if ok then d.rest else [d.head] + d.rest
      case Merged => if ok && p.stored != [] then p.stored[1..] else p.stored;
    Finished(p.(stored := queue, flight := None), queue != [])
  }

  /** One drain step from an idle page with a non-empty queue, with nothing
      else happening during the upload: success leaves the tail of the
      queue, failure leaves the whole queue with the failed item back at the
      head; either way the flag is down, and another drain is scheduled
      exactly when items remain. */
  lemma DrainStep(policy: Policy, p: Page, ok: bool)
    requires !p.Uploading() && p.stored != []
    ensures var r := FinishDrain(policy, ProcessQueue(p), ok);
            && r.page.stored == (if ok then p.stored[1..] else p.stored)
            && !r.page.Uploading()
            && (r.again <==> |p.stored| > (if ok then 1 else 0))
  {
    var q := ProcessQueue(p);
    assert [q.flight.value.head] + q.flight.value.rest == p.stored;
  }

  /** As written, the queue a drain stores depends only on the copy it read
      before the upload: two pages running the same drain store the same
      queue, whatever their stored queues are. */
  lemma AsWrittenStoresSnapshot(p1: Page, p2: Page, ok: bool)
    requires p1.Uploading() && p1.flight == p2.flight
    ensures FinishDrain(AsWritten, p1, ok).page.stored == FinishDrain(AsWritten, p2, ok).page.stored
    ensures FinishDrain(AsWritten, p1, ok).page.stored ==
              (if ok then [] else [p1.flight.value.head]) + p1.flight.value.rest
  {
  }

  /** As written, a screenshot received while an upload is in flight is
      stored, and then wiped out when that upload settles, whatever its
      outcome. */
  lemma AsWrittenLosesLateEnqueue(p: Page, m: Message, ok: bool)
    requires p.Uploading()
    requires m.kind == UploadScreenshotType && Truthy(m.dataUrl)
    requires m.dataUrl.value != p.flight.value.head && m.dataUrl.value !in p.flight.value.rest
    ensures m.dataUrl.value in HandleMessage(p, m).page.stored
    ensures HandleMessage(p, m).page.Uploading()
    ensures m.dataUrl.value !in FinishDrain(AsWritten, HandleMessage(p, m).page, ok).page.stored
  {
    var h := HandleMessage(p, m);
    assert h.page.stored[|h.page.stored| - 1] == m.dataUrl.value;
  }

  /** Under either policy, a failed item stays at the head of the queue,
      so the next drain retries it before anything later. */
  lemma FailedHeadRetriedFirst(policy: Policy, p: Page)
    requires Inv(p) && p.Uploading()
    ensures var r := FinishDrain(policy, p, false);
            && r.again
            && ProcessQueue(r.page).Uploading()
            && ProcessQueue(r.page).flight.value.head == p.flight.value.head
  {
  }

  // ---------------------------------------------------------------------
  // Event traces
  // ---------------------------------------------------------------------

  /** What can happen to a page adapter: a runtime message arrives, the
      running upload settles, or a scheduled drain timer fires. `ok` is
      whether the upload resolved, `Upload.Succeeded` of its result; a
      thrown attachment or send click settles it with `ok` false. */
  datatype Event = Receive(m: Message) | UploadSettled(ok: bool) | TimerFired

  /** The state after `e`, and the screenshot it delivered, if any. */
  function Step(policy: Policy, p: Page, e: Event): (Page, seq<DataUrl>)
  {
    match e
    case Receive(m) => (HandleMessage(p, m).page, [])
    case UploadSettled(ok) =>
      if p.Uploading() then (FinishDrain(policy, p, ok).page, if ok then [p.flight.value.head] else [])
      else (p, [])
    case TimerFired => (ProcessQueue(p), [])
  }

  datatype Trace = Trace(page: Page, delivered: seq<DataUrl>)

  function Run(policy: Policy, p: Page, events: seq<Event>): (t: Trace)
    decreases |events|
  {
    if events == [] then Trace(p, [])
    else
      var (q, d) := Step(policy, p, events[0]);
      var t := Run(policy, q, events[1..]);
      Trace(t.page, d + t.delivered)
  }

  /** The screenshots a sequence of events hands to the queue, in order. */
  function Enqueued(events: seq<Event>): seq<DataUrl>
    decreases |events|
  {
    if events == [] then []
    else
      var e := events[0];
      (if e.Receive? && e.m.kind == UploadScreenshotType && Truthy(e.m.dataUrl) then [e.m.dataUrl.value] else [])
      + Enqueued(events[1..])
  }

  /** One event with the correction: it keeps the invariant, and what it
      delivers followed by what is then stored is what was stored before
      followed by what it enqueues. */
  lemma MergedStepConserves(p: Page, e: Event)
    requires Inv(p)
    ensures var (q, d) := Step(Merged, p, e);
            Inv(q) && d + q.stored == p.stored + Enqueued([e])
  {
    assert [e][1..] == [];
    var (q, d) := Step(Merged, p, e);
    match e
    case Receive(m) =>
    case UploadSettled(ok) =>
      if p.Uploading() && ok {
        assert p.stored == [p.flight.value.head] + q.stored;
      }
    case TimerFired =>
  }

  /** Enqueued distributes over a first event and the rest. */
  lemma EnqueuedCons(events: seq<Event>)
    requires events != []
    ensures Enqueued(events) == Enqueued([events[0]]) + Enqueued(events[1..])
  {
    assert [events[0]][1..] == [];
  }

  /** With the correction, nothing is lost and nothing overtakes: what has
      been delivered followed by what is still stored is exactly what was
      stored initially followed by everything enqueued since, in order. */
  lemma {:induction false} MergedConservesQueue(p: Page, events: seq<Event>)
    requires Inv(p)
    ensures Run(Merged, p, events).delivered + Run(Merged, p, events).page.stored == p.stored + Enqueued(events)
    decreases |events|
  {
    if events != [] {
      var step := Step(Merged, p, events[0]);
      var t := Run(Merged, step.0, events[1..]);
      assert Run(Merged, p, events) == Trace(t.page, step.1 + t.delivered);
      MergedStepConserves(p, events[0]);
      MergedConservesQueue(step.0, events[1..]);
      EnqueuedCons(events);
      Associative(step.1, t.delivered, t.page.stored);
      Associative(p.stored, Enqueued([events[0]]), Enqueued(events[1..]));
      Associative(step.1, step.0.stored, Enqueued(events[1..]));
    }
  }

  lemma Associative(a: seq<DataUrl>, b: seq<DataUrl>, c: seq<DataUrl>)
    ensures a + b + c == a + (b + c)
  {
  }

  /** The counterexample: two screenshots arrive, the second during the
      first one's upload, and the upload succeeds. As written the second
      one is gone; with the correction it is still queued. */
  lemma LateEnqueueExample()
    ensures var events := [Receive(Message(UploadScreenshotType, Some("a"), None, None)),
                           Receive(Message(UploadScreenshotType, Some("b"), None, None)),
                           UploadSettled(true)];
            && Enqueued(events) == ["a", "b"]
            && Run(AsWritten, Initial, events) == Trace(Page([], None, DefaultSettings), ["a"])
            && Run(Merged, Initial, events) == Trace(Page(["b"], None, DefaultSettings), ["a"])
  {
    var ma := Message(UploadScreenshotType, Some("a"), None, None);
    var mb := Message(UploadScreenshotType, Some("b"), None, None);
    var events := [Receive(ma), Receive(mb), UploadSettled(true)];
    assert events[1..] == [Receive(mb), UploadSettled(true)];
    assert events[1..][1..] == [UploadSettled(true)];
    assert events[1..][1..][1..] == [];
    assert Enqueued([UploadSettled(true)]) == [];
    assert Enqueued([Receive(mb), UploadSettled(true)]) == ["b"];
    var p1 := Page(["a"], Some(Drain("a", [])), DefaultSettings);
    var p2 := Page(["a", "b"], Some(Drain("a", [])), DefaultSettings);
    assert HandleMessage(Initial, ma).page == p1;
    assert HandleMessage(p1, mb).page == p2;
    assert FinishDrain(AsWritten, p2, true).page == Page([], None, DefaultSettings);
    assert FinishDrain(Merged, p2, true).page == Page(["b"], None, DefaultSettings);
    var lost := Page([], None, DefaultSettings);
    var kept := Page(["b"], None, DefaultSettings);
    assert Run(AsWritten, p2, [UploadSettled(true)]) == Trace(lost, ["a"]);
    assert Run(AsWritten, p1, events[1..]) == Trace(lost, ["a"]);
    assert Run(Merged, p2, [UploadSettled(true)]) == Trace(kept, ["a"]);
    assert Run(Merged, p1, events[1..]) == Trace(kept, ["a"]);
  }

  /** Messages that carry no settings never change the page's settings. */
  predicate CarriesNoSettings(events: seq<Event>)
  {
    forall i :: 0 <= i < |events| ==> events[i].Receive? ==> events[i].m.settings.None?
  }

  lemma {:induction false} SettingsKeptWithoutSettings(policy: Policy, p: Page, events: seq<Event>)
    requires CarriesNoSettings(events)
    ensures Run(policy, p, events).page.settings == p.settings
    decreases |events|
  {
    if events != [] {
      var (q, d) := Step(policy, p, events[0]);
      assert CarriesNoSettings(events[1..]) by {
        forall i | 0 <= i < |events[1..]| ensures events[1..][i].Receive? ==> events[1..][i].m.settings.None? {
          assert events[1..][i] == events[i + 1];
        }
      }
      SettingsKeptWithoutSettings(policy, q, events[1..]);
    }
  }
}

=== FILE: coordinator.dfy ===
/** The background coordinator's entry points: capture a screenshot or the
    selected text from the active tab, acquire the chat tab, and deliver
    the payload with up to three attempts; plus the routing of keyboard
    commands and control-panel requests to those entry points. */
module Coordinator {
  import opened Wrappers
  import opened Text
  import opened Protocol
  import opened Orchestrator
  import Adapter

  const MaxAttempts := 3

  /** Delay before each re-check between attempts. */
  const RetryDelayMs := 1000

  /** Whether the `i`-th message send succeeds; sends beyond the list fail. */
  predicate SendOk(sends: seq<bool>, i: nat)
  {
    i < |sends| && sends[i]
  }

  /** The presence-check outcomes met by the `i`-th re-check; checks beyond
      the list meet an unresponsive tab whose injection fails. */
  function PresenceAt(presences: seq<Presence>, i: nat): Presence
  {
    if i < |presences| then presences[i] else Presence(false, false)
  }

  /** Every message sent in `log` is `message`, sent to `tab`. */
  predicate SendsOnly(log: seq<Action>, tab: TabId, message: Message)
  {
    forall i :: 0 <= i < |log| && log[i].Send? ==> log[i] == Send(tab, message)
  }

  /** A log in which no send is counted contains no send. */
  lemma {:induction false} NoSendInUncounted(log: seq<Action>)
    requires Count(log, IsSend) == 0
    ensures forall i :: 0 <= i < |log| ==> !log[i].Send?
    decreases |log|
  {
    if log != [] {
      NoSendInUncounted(log[1..]);
      forall i | 1 <= i < |log| ensures !log[i].Send? {
        assert log[i] == log[1..][i - 1];
      }
    }
  }

  /** Every send in `log` comes after as many presence checks as earlier
      sends, and after at least a retry delay per earlier send: a re-check
      and its wait sit between consecutive attempts. */
  predicate Paced(log: seq<Action>)
  {
    forall n :: 0 <= n < |log| && log[n].Send? ==>
      && Count(log[..n], IsPing) == Count(log[..n], IsSend)
      && Waited(log[..n]) >= RetryDelayMs * Count(log[..n], IsSend)
  }

  /** What a delivery log has done so far: `sends` sends, all of `message`
      to `tab`; `pings` presence checks, each after a retry delay and with
      at most one injection; no tab created or activated; and every send
      paced. */
  predicate Tallied(log: seq<Action>, tab: TabId, message: Message, sends: nat, pings: nat)
  {
    && Count(log, IsSend) == sends
    && Count(log, IsPing) == pings
    && Count(log, IsInject) <= pings
    && Count(log, IsCreate) == 0 && Count(log, IsActivate) == 0
    && SendsOnly(log, tab, message)
    && Waited(log) >= RetryDelayMs * pings
    && Paced(log)
  }

  /** The retry loop shared by both entry points: send, and after a failed
      send that is not the last, wait and re-check the page adapter. */
  method Deliver(tab: TabId, message: Message, sends: seq<bool>, presences: seq<Presence>)
    returns (sent: nat, ok: bool, log: seq<Action>)
    ensures 1 <= sent <= MaxAttempts
    // the first successful attempt ends the loop
    ensures ok ==> SendOk(sends, sent - 1) && forall i :: 0 <= i < sent - 1 ==> !SendOk(sends, i)
    ensures ok <==> exists i :: 0 <= i < MaxAttempts && SendOk(sends, i)
    // three failures and no fourth attempt
    ensures !ok ==> sent == MaxAttempts
    ensures Count(log, IsSend) == sent
    // success on attempt k follows exactly k - 1 re-checks; three failures follow two
    ensures Count(log, IsPing) == sent - 1
    ensures Count(log, IsInject) <= sent - 1
    ensures Count(log, IsCreate) == 0 && Count(log, IsActivate) == 0
    ensures SendsOnly(log, tab, message)
    ensures Waited(log) >= RetryDelayMs * (sent - 1)
    // before attempt k: k - 1 earlier sends, k - 1 re-checks and their waits; the log ends with a send
    ensures Paced(log)
    ensures |log| >= 1 && log[|log| - 1].Send?
  {
    var attempts := 0;
    sent, ok, log := 0, false, [];
    while attempts < MaxAttempts
      invariant 0 <= attempts <= MaxAttempts
      invariant sent == attempts && !ok
      invariant forall i :: 0 <= i < attempts ==> !SendOk(sends, i)
      invariant Tallied(log, tab, message, attempts, if attempts == MaxAttempts then attempts - 1 else attempts)
      invariant attempts == MaxAttempts ==> |log| >= 1 && log[|log| - 1].Send?
    {
      SendAppended(log, tab, message, attempts);
      log := log + [Send(tab, message)];
      sent := sent + 1;
      if SendOk(sends, attempts) {
        ok := true;
        break;
      }
      attempts := attempts + 1;
      if attempts < MaxAttempts {
        var presence := PresenceAt(presences, attempts - 1);
        RecheckAppended(log, tab, message, attempts, presence);
        log := log + ([Wait(RetryDelayMs)] + EnsureContentScriptInjected(tab, presence));
      }
    }
  }

  /** One send after as many re-checks as earlier sends. */
  lemma SendAppended(log: seq<Action>, tab: TabId, message: Message, k: nat)
    requires Tallied(log, tab, message, k, k)
    ensures Tallied(log + [Send(tab, message)], tab, message, k + 1, k)
  {
    var one := [Send(tab, message)];
    var l := log + one;
    forall n | 0 <= n < |l| && l[n].Send?
      ensures Count(l[..n], IsPing) == Count(l[..n], IsSend)
      ensures Waited(l[..n]) >= RetryDelayMs * Count(l[..n], IsSend)
    {
      if n < |log| {
        assert l[..n] == log[..n] && l[n] == log[n];
      } else {
        assert l[..n] == log;
      }
    }
    CountCons(Send(tab, message), []);
    assert one == [Send(tab, message)] + [];
    CountAppend(log, one, IsSend);
    CountAppend(log, one, IsPing);
    CountAppend(log, one, IsInject);
    CountAppend(log, one, IsCreate);
    CountAppend(log, one, IsActivate);
    WaitedAppend(log, one);
  }

  /** One wait followed by one presence check. */
  lemma RecheckAppended(log: seq<Action>, tab: TabId, message: Message, k: nat, presence: Presence)
    requires k >= 1 && Tallied(log, tab, message, k, k - 1)
    ensures Tallied(log + ([Wait(RetryDelayMs)] + EnsureContentScriptInjected(tab, presence)), tab, message, k, k)
  {
    var check := EnsureContentScriptInjected(tab, presence);
    var step := [Wait(RetryDelayMs)] + check;
    CountCons(Wait(RetryDelayMs), check);
    assert Waited(step) == RetryDelayMs + Waited(check) by {
      assert step[1..] == check;
    }
    CountAppend(log, step, IsSend);
    CountAppend(log, step, IsPing);
    CountAppend(log, step, IsInject);
    CountAppend(log, step, IsCreate);
    CountAppend(log, step, IsActivate);
    WaitedAppend(log, step);
    NoSendInUncounted(step);
    var l := log + step;
    forall n | 0 <= n < |l| && l[n].Send?
      ensures Count(l[..n], IsPing) == Count(l[..n], IsSend)
      ensures Waited(l[..n]) >= RetryDelayMs * Count(l[..n], IsSend)
    {
      if n < |log| {
        assert l[..n] == log[..n] && l[n] == log[n];
      }
    }
  }

  /** The message carrying a screenshot: no settings travel with it. */
  function ScreenshotMessage(dataUrl: string): Message
  {
    Message(UploadScreenshotType, Some(dataUrl), None, None)
  }

  /** The message carrying selected text: no settings travel with it. */
  function TextMessage(text: string): Message
  {
    Message(SendTextType, None, Some(text), None)
  }

  /** The presence check's ping. */
  const PingMessage := Message(PingType, None, None, None)

  /** A message built by the coordinator itself. */
  predicate FromCoordinator(m: Message)
  {
    || m == PingMessage
    || (m.dataUrl.Some? && m == ScreenshotMessage(m.dataUrl.value))
    || (m.text.Some? && m == TextMessage(m.text.value))
  }

  /** Since no message the coordinator sends carries settings, a page
      adapter that hears only from the coordinator keeps its defaults for
      good: the options saved in the control panel never reach it. */
  lemma PageKeepsDefaults(policy: Adapter.Policy, events: seq<Adapter.Event>)
    requires forall i :: 0 <= i < |events| && events[i].Receive? ==> FromCoordinator(events[i].m)
    ensures Adapter.Run(policy, Adapter.Initial, events).page.settings == DefaultSettings
  {
    assert Adapter.CarriesNoSettings(events);
    Adapter.SettingsKeptWithoutSettings(policy, Adapter.Initial, events);
  }

  /** How a capture ends. `NoTargetTab` covers every way tab acquisition
      can end without a tab: creating one failed, or activating the
      existing one was rejected (a throw the capture catches). */
  datatype Report =
    | NoActiveTab
    | CaptureFailed
    | NoSelection
    | NoTargetTab
    | Delivered(tab: TabId, attempts: nat)
    | DeliveryFailed(tab: TabId)

  /** What one capture meets: the active tabs of the current window, the
      captured image (`None` when capturing fails), the selection read from
      the active tab (`None` when there is no result), tab acquisition's
      inputs, and the delivery outcomes. */
  datatype CaptureEnv = CaptureEnv(
    active: seq<Tab>,
    screenshot: Option<string>,
    selection: Option<string>,
    tabs: TabEnv,
    sends: seq<bool>,
    presences: seq<Presence>)

  /** How a capture that got its payload ends, in terms of what tab
      acquisition and the sends met: no target tab exactly when acquisition
      yields none; otherwise delivery to the acquired tab, successful
      exactly when one of the first three sends succeeds, and ended by the
      first success. Each send is matched by one ping (acquisition's check
      before the first send, a re-check before each later one); without a
      target tab there is one ping when an existing tab was checked before
      its activation was rejected. A tab is created, once, exactly when
      none was open. */
  predicate Reported(report: Report, log: seq<Action>, env: CaptureEnv)
  {
    var acquired := EnsureChatGptTab(env.tabs).tab;
    && (report.NoTargetTab? || report.Delivered? || report.DeliveryFailed?)
    && (report.NoTargetTab? <==> acquired.None?)
    && (report.Delivered? || report.DeliveryFailed? ==> acquired == Some(report.tab))
    && (report.Delivered? <==> acquired.Some? && exists i :: 0 <= i < MaxAttempts && SendOk(env.sends, i))
    && (report.Delivered? ==>
          && 1 <= report.attempts <= MaxAttempts
          && SendOk(env.sends, report.attempts - 1)
          && forall i :: 0 <= i < report.attempts - 1 ==> !SendOk(env.sends, i))
    && Count(log, IsSend) == (match report
                              case Delivered(_, k) => k
                              case DeliveryFailed(_) => MaxAttempts
                              case _ => 0)
    && Count(log, IsPing) ==
         Count(log, IsSend) + (if report.NoTargetTab? && QueryTargetTabs(env.tabs.open) != [] then 1 else 0)
    && Count(log, IsCreate) <= 1
    && (Count(log, IsCreate) == 1 <==> QueryTargetTabs(env.tabs.open) == [])
  }

  /** Acquire the chat tab after `prefix`: no message is sent, one ping is
      made unless creating a tab failed, and a tab is created, once,
      exactly when none is open on either domain. */
  method Acquire(prefix: seq<Action>, env: TabEnv) returns (tab: Option<TabId>, log: seq<Action>)
    requires Count(prefix, IsSend) == 0 && Count(prefix, IsCreate) == 0 && Count(prefix, IsPing) == 0
    ensures tab == EnsureChatGptTab(env).tab
    ensures |log| >= |prefix| && log[..|prefix|] == prefix
    ensures Count(log, IsSend) == 0
    ensures Count(log, IsPing) == if tab.Some? || QueryTargetTabs(env.open) != [] then 1 else 0
    ensures Count(log, IsCreate) <= 1
    ensures Count(log, IsCreate) == 1 <==> QueryTargetTabs(env.open) == []
  {
    var acquired := EnsureChatGptTab(env);
    Joined(prefix, acquired.log);
    return acquired.tab, prefix + acquired.log;
  }

  /** Acquire the chat tab and deliver `message` to it; `prefix` is what the
      capture already did. */
  method AcquireAndDeliver(prefix: seq<Action>, message: Message, env: CaptureEnv)
    returns (report: Report, log: seq<Action>)
    requires Count(prefix, IsSend) == 0 && Count(prefix, IsCreate) == 0 && Count(prefix, IsPing) == 0
    ensures |log| >= |prefix| && log[..|prefix|] == prefix
    ensures Reported(report, log, env)
    ensures report.Delivered? || report.DeliveryFailed? ==> SendsOnly(log, report.tab, message)
  {
    var acquiredTab;
    acquiredTab, log := Acquire(prefix, env.tabs);
    if acquiredTab.None? {
      return NoTargetTab, log;
    }
    var tab := acquiredTab.value;
    var sent, ok, delivery := Deliver(tab, message, env.sends, env.presences);
    Joined(log, delivery);
    SendsOnlyAfterSilence(log, delivery, tab, message);
    assert (log + delivery)[..|prefix|] == log[..|prefix|];
    log := log + delivery;
    if ok {
      report := Delivered(tab, sent);
    } else {
      report := DeliveryFailed(tab);
    }
  }

  /** Joining two logs adds their sends, creations and pings and keeps the first
      as a prefix. */
  lemma Joined(a: seq<Action>, b: seq<Action>)
    ensures Count(a + b, IsSend) == Count(a, IsSend) + Count(b, IsSend)
    ensures Count(a + b, IsCreate) == Count(a, IsCreate) + Count(b, IsCreate)
    ensures Count(a + b, IsPing) == Count(a, IsPing) + Count(b, IsPing)
    ensures (a + b)[..|a|] == a
  {
    CountAppend(a, b, IsSend);
    CountAppend(a, b, IsCreate);
    CountAppend(a, b, IsPing);
  }

  /** A log without sends, followed by one that sends only `message` to
      `tab`, sends only `message` to `tab`. */
  lemma SendsOnlyAfterSilence(a: seq<Action>, b: seq<Action>, tab: TabId, message: Message)
    requires Count(a, IsSend) == 0 && SendsOnly(b, tab, message)
    ensures SendsOnly(a + b, tab, message)
  {
    NoSendInUncounted(a);
    forall i | 0 <= i < |a + b| && (a + b)[i].Send? ensures (a + b)[i] == Send(tab, message) {
      if i >= |a| {
        assert (a + b)[i] == b[i - |a|];
      }
    }
  }

  /** `captureAndSendScreenshot`. */
  method CaptureAndSendScreenshot(env: CaptureEnv) returns (report: Report, log: seq<Action>)
    // no active tab: nothing is captured, no tab is looked for or created
    ensures env.active == [] ==> report == NoActiveTab && log == []
    ensures env.active != [] && env.screenshot.None? ==> report == CaptureFailed && log == [CaptureVisible]
    // a captured image: acquisition and delivery decide the report
    ensures env.active != [] && env.screenshot.Some? ==>
              |log| >= 1 && log[0] == CaptureVisible && Reported(report, log, env)
    ensures Count(log, IsSend) <= MaxAttempts && Count(log, IsCreate) <= 1
    // every message is the captured image, without settings
    ensures report.Delivered? || report.DeliveryFailed? ==> SendsOnly(log, report.tab, ScreenshotMessage(env.screenshot.value))
    ensures Count(log, IsSend) > 0 ==> env.screenshot.Some?
  {
    if env.active == [] {
      return NoActiveTab, [];
    }
    if env.screenshot.None? {
      return CaptureFailed, [CaptureVisible];
    }
    assert Count([CaptureVisible], IsSend) == 0 && Count([CaptureVisible], IsCreate) == 0;
    assert Count([CaptureVisible], IsPing) == 0;
    report, log := AcquireAndDeliver([CaptureVisible], ScreenshotMessage(env.screenshot.value), env);
  }

  /** The selection as the coordinator uses it: trimmed, absent when there
      was no result. */
  function SelectedText(selection: Option<string>): (r: Option<string>)
    ensures r.None? <==> selection.None? || forall i :: 0 <= i < |selection.value| ==> IsWhitespace(selection.value[i])
    ensures r.Some? ==> r.value == Trim(selection.value) && r.value != ""
  {
    TrimSpec(if selection.Some? then selection.value else "");
    match selection
    case None => None
    case Some(s) => if Trim(s) == "" then None else Some(Trim(s))
  }

  /** `captureAndSendText`. */
  method CaptureAndSendText(env: CaptureEnv) returns (report: Report, log: seq<Action>)
    ensures env.active == [] ==> report == NoActiveTab && log == []
    // an empty or blank selection stops before any tab is looked for, pinged or created
    ensures env.active != [] && SelectedText(env.selection).None? ==>
              report == NoSelection && log == [ReadSelection(env.active[0].id)]
    // a non-blank selection: acquisition and delivery decide the report
    ensures env.active != [] && SelectedText(env.selection).Some? ==>
              |log| >= 1 && log[0] == ReadSelection(env.active[0].id) && Reported(report, log, env)
    ensures Count(log, IsSend) <= MaxAttempts && Count(log, IsCreate) <= 1
    // every message carries the trimmed selection, without settings
    ensures report.Delivered? || report.DeliveryFailed? ==>
              SelectedText(env.selection).Some? && SendsOnly(log, report.tab, TextMessage(SelectedText(env.selection).value))
  {
    if env.active == [] {
      return NoActiveTab, [];
    }
    var read := [ReadSelection(env.active[0].id)];
    var text := SelectedText(env.selection);
    if text.None? {
      return NoSelection, read;
    }
    assert Count(read, IsSend) == 0 && Count(read, IsCreate) == 0 && Count(read, IsPing) == 0;
    report, log := AcquireAndDeliver(read, TextMessage(text.value), env);
    assert log[0] == log[..|read|][0];
  }

  // ---------------------------------------------------------------------
  // Dispatch
  // ---------------------------------------------------------------------

  /** A capture started by a trigger, with the reason it records. */
  datatype Job = ScreenshotJob(reason: string) | TextJob(reason: string)

  const ScreenshotCommand := "capture-screenshot"
  const TextCommand := "capture-text"
  const CaptureScreenshotType := "CAPTURE_SCREENSHOT"
  const CaptureTextType := "CAPTURE_TEXT"

  /** `chrome.commands.onCommand`. */
  function OnCommand(command: string): (r: Option<Job>)
    ensures r == Some(ScreenshotJob("keyboard shortcut")) <==> command == ScreenshotCommand
    ensures r == Some(TextJob("keyboard shortcut")) <==> command == TextCommand
    ensures r.None? <==> command != ScreenshotCommand && command != TextCommand
  {
    if command == ScreenshotCommand then Some(ScreenshotJob("keyboard shortcut"))
    else if command == TextCommand then Some(TextJob("keyboard shortcut"))
    else None
  }

  /** A control-panel request: its `type` and the settings it carries. */
  datatype PanelRequest = PanelRequest(kind: string, settings: Option<Settings>)

  /** The capture started and the response sent for one request. */
  datatype Dispatched = Dispatched(job: Option<Job>, response: Option<Response>)

  /** `chrome.runtime.onMessage` in the background: the response is sent
      as soon as the capture is started, so it cannot depend on the
      capture's outcome; the request's settings are not used. */
  function OnRuntimeMessage(request: PanelRequest): (r: Dispatched)
    ensures r.job.Some? <==> r.response.Some?
    ensures r.job == Some(ScreenshotJob("popup button")) <==> request.kind == CaptureScreenshotType
    ensures r.job == Some(TextJob("popup button")) <==> request.kind == CaptureTextType
    ensures r.job.None? <==> request.kind != CaptureScreenshotType && request.kind != CaptureTextType
  {
    if request.kind == CaptureScreenshotType then
      Dispatched(Some(ScreenshotJob("popup button")), Some(Response("capture queued")))
    else if request.kind == CaptureTextType then
      Dispatched(Some(TextJob("popup button")), Some(Response("text capture queued")))
    else
      Dispatched(None, None)
  }
}

=== FILE: insertion.dfy ===
/** The page adapter's text delivery (`sendTextToChatGPT`): locate the input
    field, then try three insertion strategies in a fixed order until one
    reports success, then optionally press send. The DOM effects of each
    strategy are reduced to what the strategy observes afterwards. */
module Insertion {
  import opened Wrappers
  import opened Text
  import opened Protocol
  import opened Search
  import opened Pickers

  /** The field content a strategy reads back: `value` ("" for elements
      without one), `innerText` and `textContent`. */
  datatype Readout = Readout(value: string, innerText: string, textContent: string)

  /** `inputField.value || inputField.innerText || inputField.textContent`. */
  function CurrentText(r: Readout): (t: string)
    ensures t == r.value || t == r.innerText || t == r.textContent
    // the first non-empty of the three, in order
    ensures r.value != "" ==> t == r.value
    ensures r.value == "" && r.innerText != "" ==> t == r.innerText
    ensures r.value == "" && r.innerText == "" ==> t == r.textContent
    ensures t == "" ==> r.value == "" && r.innerText == ""
  {
    if r.value != "" then r.value
    else if r.innerText != "" then r.innerText
    else r.textContent
  }

  /** How much of the text must show up in the field for a strategy to count as successful. */
  const CheckedPrefixLength := 20

  /** What a verified strategy observed: it threw before reading the field
      back, or it read the field back. */
  datatype Probe = Threw | Observed(readout: Readout)

  /** The success test shared by the clipboard-paste and the direct-input
      strategies: no exception, and the field content includes the first
      20 characters of the text. */
  predicate Verified(probe: Probe, text: string)
  {
    probe.Observed? && Contains(CurrentText(probe.readout), Prefix(text, CheckedPrefixLength))
  }

  /** A verified strategy succeeds exactly when the field content holds
      the text's first 20 characters (all of it, for shorter texts) as a
      contiguous piece. */
  lemma VerifiedMeaning(probe: Probe, text: string)
    ensures Verified(probe, text) <==>
              probe.Observed? &&
              exists i: nat :: OccursAt(CurrentText(probe.readout), Prefix(text, CheckedPrefixLength), i)
    ensures |text| >= CheckedPrefixLength && Verified(probe, text) ==>
              |CurrentText(probe.readout)| >= CheckedPrefixLength
  {
    if probe.Observed? {
      var t := CurrentText(probe.readout);
      var p := Prefix(text, CheckedPrefixLength);
      if exists i: nat :: OccursAt(t, p, i) {
        var i: nat :| OccursAt(t, p, i);
        ContainsAt(t, p, i);
      }
    }
  }

  /** What `tryValueSetter` depends on: whether `HTMLTextAreaElement` and
      `HTMLInputElement` have a native `value` setter, and whether the
      other DOM calls threw. */
  datatype SetterEnv = SetterEnv(textareaSetter: bool, inputSetter: bool, threw: bool)

  predicate IsTextControl(field: Element)
  {
    field.tag == "TEXTAREA" || field.tag == "INPUT"
  }

  /** The setter used is the textarea one when it exists, else the input
      one; calling it on the other kind of control throws "Illegal
      invocation". */
  predicate SetterFits(field: Element, env: SetterEnv)
  {
    || (field.tag == "TEXTAREA" && env.textareaSetter)
    || (field.tag == "INPUT" && !env.textareaSetter && env.inputSetter)
  }

  /** `tryValueSetter`: reports success without reading the field back,
      when the setter it picks belongs to the field's kind of control, or
      when the field is editable and no setter was called. */
  function TryValueSetter(field: Element, env: SetterEnv): (ok: bool)
    // an input field meets the textarea setter, which throws: the strategy fails
    ensures field.tag == "INPUT" && env.textareaSetter ==> !ok
    ensures ok <==>
              && !env.threw
              && (|| SetterFits(field, env)
                  || (!(IsTextControl(field) && (env.textareaSetter || env.inputSetter)) && field.editable))
  {
    if env.threw then false
    else if IsTextControl(field) && (env.textareaSetter || env.inputSetter) then
      // the setter is called; it throws unless it is the field's own
      if env.textareaSetter then field.tag == "TEXTAREA" else field.tag == "INPUT"
    else field.editable
  }

  datatype Strategy = ClipboardPaste | DirectInput | ValueSetter

  /** The fixed order in which the strategies are tried. */
  const Chain := [ClipboardPaste, DirectInput, ValueSetter]

  /** Everything the text delivery observes of the page. `clickError` is
      the message of the TypeError a click on an icon throws; the browser
      words it. */
  datatype TextEnv = TextEnv(
    fieldPolls: seq<seq<Option<Element>>>,
    clipboard: Probe,
    direct: Probe,
    setter: SetterEnv,
    sendMatches: seq<seq<Element>>,
    form: Option<seq<Element>>,
    clickError: string)

  predicate WellFormed(env: TextEnv)
  {
    && (forall k :: 0 <= k < |env.fieldPolls| ==> |env.fieldPolls[k]| == |InputFieldSelectors|)
    && |env.sendMatches| == |SendButtonSelectors|
  }

  /** What strategy `s` reports for `text` in the field `field`. */
  function Outcome(s: Strategy, field: Element, text: string, env: TextEnv): bool
  {
    match s
    case ClipboardPaste => Verified(env.clipboard, text)
    case DirectInput => Verified(env.direct, text)
    case ValueSetter => TryValueSetter(field, env.setter)
  }

  /** Every strategy before the `j`-th one in `Chain` reported failure. */
  predicate FailedBefore(field: Element, text: string, env: TextEnv, j: nat)
    requires j <= |Chain|
  {
    forall i :: 0 <= i < j ==> !Outcome(Chain[i], field, text, env)
  }

  /** The strategies that run, in order: each one runs exactly when all
      earlier ones reported failure, so the first success ends the chain. */
  function Attempted(field: Element, text: string, env: TextEnv): (tried: seq<Strategy>)
    ensures 1 <= |tried| <= |Chain| && tried == Chain[..|tried|]
    ensures forall j :: 0 <= j < |Chain| ==> (j < |tried| <==> FailedBefore(field, text, env, j))
    ensures Outcome(tried[|tried| - 1], field, text, env) <==>
              exists j :: 0 <= j < |Chain| && Outcome(Chain[j], field, text, env)
  {
    if Outcome(ClipboardPaste, field, text, env) then
      assert Chain[0] == ClipboardPaste;
      assert !FailedBefore(field, text, env, 2);
      [ClipboardPaste]
    else if Outcome(DirectInput, field, text, env) then
      assert Chain[0] == ClipboardPaste && Chain[1] == DirectInput;
      assert FailedBefore(field, text, env, 1) && !FailedBefore(field, text, env, 2);
      [ClipboardPaste, DirectInput]
    else Chain
  }

  datatype NoticeKind = InfoNotice | SuccessNotice | ErrorNotice
  datatype Notice = Notice(kind: NoticeKind, message: string)

  const SendingNotice := Notice(InfoNotice, "Sending text to ChatGPT...")
  const SentNotice := Notice(SuccessNotice, "Text sent to ChatGPT!")
  const FailurePrefix := "Failed to send text: "

  /** The error notice for a delivery that threw with `reason`. */
  function FailureNotice(reason: string): Notice
  {
    Notice(ErrorNotice, FailurePrefix + reason)
  }

  const NoFieldNotice := FailureNotice("Could not find ChatGPT input field")

  /** The observable course of one text delivery. */
  datatype TextRun = TextRun(
    field: Option<Pos>,
    tried: seq<Strategy>,
    inserted: bool,
    send: Option<SendClick>,
    notices: seq<Notice>)

  /** `sendTextToChatGPT(text)` under `settings`. */
  method SendTextToChatGPT(settings: Settings, text: string, env: TextEnv) returns (run: TextRun)
    requires WellFormed(env)
    ensures run.field.None? <==> Nowhere(env.fieldPolls, VisibleHit)
    ensures run.field.Some? ==> FirstInOrder(env.fieldPolls, VisibleHit, run.field.value)
    // no field: no strategy runs, nothing is pressed, the error notice is shown
    ensures run.field.None? ==> run.tried == [] && !run.inserted && run.send.None?
    // the strategies run in the fixed order, a later one only after every earlier one failed
    ensures run.tried <= Chain
    ensures run.field.Some? ==> |run.tried| >= 1
    ensures run.field.Some? ==>
              var f := env.fieldPolls[run.field.value.row][run.field.value.col].value;
              && (forall j :: 0 <= j < |Chain| ==> (j < |run.tried| <==> FailedBefore(f, text, env, j)))
              && (run.inserted <==> exists j :: 0 <= j < |Chain| && Outcome(Chain[j], f, text, env))
    // send is pressed exactly when a field was found and auto-send is on
    ensures run.send.Some? <==> run.field.Some? && settings.autoSend
    // what pressing send did is fixed by the page
    ensures run.send.Some? ==> SendClickSpec(env.sendMatches, env.form, run.send.value)
    // the success notice depends only on finding the field and on the send
    // click not throwing, not on any strategy succeeding
    ensures run.notices ==
              if !settings.showNotifications then []
              else if run.field.None? then [SendingNotice, NoFieldNotice]
              else if run.send.Some? && run.send.value.ClickThrew? then [SendingNotice, FailureNotice(env.clickError)]
              else [SendingNotice, SentNotice]
    ensures run.send.Some? && run.send.value.ClickThrew? ==> !Nowhere(env.sendMatches, SendCandidate)
  {
    var notices := if settings.showNotifications then [SendingNotice] else [];
    var pos := FindInputField(env.fieldPolls);
    if pos.None? {
      if settings.showNotifications {
        notices := notices + [NoFieldNotice];
      }
      return TextRun(None, [], false, None, notices);
    }
    var field := env.fieldPolls[pos.value.row][pos.value.col].value;
    var tried := Attempted(field, text, env);
    var inserted := Outcome(tried[|tried| - 1], field, text, env);
    var send := None;
    if settings.autoSend {
      var click := ClickSendButton(env.sendMatches, env.form);
      send := Some(click);
    }
    if settings.showNotifications {
      if send.Some? && send.value.ClickThrew? {
        notices := notices + [FailureNotice(env.clickError)];
      } else {
        notices := notices + [SentNotice];
      }
    }
    return TextRun(pos, tried, inserted, send, notices);
  }
}

=== FILE: orchestrator.dfy ===
/** The background coordinator's tab handling: find or open the chat tab
    (`ensureChatGptTab`), make sure the page adapter answers
    (`ensureContentScriptInjected`), and wait for a new tab to load
    (`waitForTabLoad`). Chrome API results are inputs; what the
    coordinator does is recorded as a log of actions. */
module Orchestrator {
  import opened Wrappers
  import opened Search
  import opened Protocol

  type TabId = int

  datatype Tab = Tab(id: TabId, url: string)

  /** The match patterns of the chat application's two domains. */
  const TargetPatterns := ["https://chatgpt.com/*", "https://chat.openai.com/*"]

  /** The address a new chat tab is opened at, whatever the settings say. */
  const NewTabUrl := "https://chatgpt.com/"

  /** A match pattern ending in a star matches every URL that starts with
      the part before the star. */
  predicate MatchesPattern(url: string, pattern: string)
  {
    |pattern| > 0 && pattern[|pattern| - 1] == '*' && pattern[..|pattern| - 1] <= url
  }

  /** A tab on either domain. */
  predicate IsTargetTab(t: Tab)
  {
    MatchesPattern(t.url, TargetPatterns[0]) || MatchesPattern(t.url, TargetPatterns[1])
  }

  /** `chrome.tabs.query({url: TargetPatterns})`: the open tabs on either
      domain, in the browser's order. */
  function QueryTargetTabs(open: seq<Tab>): (r: seq<Tab>)
    ensures |r| <= |open|
    ensures forall i :: 0 <= i < |r| ==> IsTargetTab(r[i]) && r[i] in open
    ensures forall i :: 0 <= i < |open| && IsTargetTab(open[i]) ==> open[i] in r
  {
    if open == [] then []
    else
      var rest := QueryTargetTabs(open[1..]);
      assert forall i :: 1 <= i < |open| ==> open[i] == open[1..][i - 1];
      if IsTargetTab(open[0]) then [open[0]] + rest else rest
  }

  /** The query's first result is the first tab on either domain. */
  lemma {:induction false} QueryFirstAt(open: seq<Tab>, j: nat)
    requires j < |open| && IsTargetTab(open[j])
    requires forall k :: 0 <= k < j ==> !IsTargetTab(open[k])
    ensures QueryTargetTabs(open) != [] && QueryTargetTabs(open)[0] == open[j]
    decreases j
  {
    if j > 0 {
      assert !IsTargetTab(open[0]);
      assert forall k :: 0 <= k < j - 1 ==> open[1..][k] == open[k + 1];
      QueryFirstAt(open[1..], j - 1);
    }
  }

  /** The tab the coordinator uses, the query's first result, is the first
      tab on either domain in the browser's order; the query is empty
      exactly when there is none. */
  lemma QueryFirst(open: seq<Tab>)
    ensures QueryTargetTabs(open) == [] <==> FirstIndex(open, IsTargetTab).None?
    ensures QueryTargetTabs(open) != [] ==> QueryTargetTabs(open)[0] == open[FirstIndex(open, IsTargetTab).value]
  {
    var first := FirstIndex(open, IsTargetTab);
    if first.Some? {
      QueryFirstAt(open, first.value);
    }
  }

  /** What the coordinator does, in order. */
  datatype Action =
    | Ping(tab: TabId)
    | Inject(tab: TabId)
    | Wait(ms: nat)
    | Activate(tab: TabId)
    | Create(url: string, active: bool)
    | AwaitLoad(tab: TabId)
    | Send(tab: TabId, message: Message)
    | CaptureVisible
    | ReadSelection(tab: TabId)

  predicate IsPing(a: Action) { a.Ping? }
  predicate IsInject(a: Action) { a.Inject? }
  predicate IsActivate(a: Action) { a.Activate? }
  predicate IsCreate(a: Action) { a.Create? }
  predicate IsSend(a: Action) { a.Send? }

  /** How many actions of `log` satisfy `p`. */
  function Count(log: seq<Action>, p: Action -> bool): nat
    decreases |log|
  {
    if log == [] then 0 else (if p(log[0]) then 1 else 0) + Count(log[1..], p)
  }

  lemma {:induction false} CountAppend(a: seq<Action>, b: seq<Action>, p: Action -> bool)
    ensures Count(a + b, p) == Count(a, p) + Count(b, p)
    decreases |a|
  {
    if a == [] {
      assert a + b == b;
    } else {
      assert (a + b)[1..] == a[1..] + b;
      CountAppend(a[1..], b, p);
    }
  }

  lemma CountCons(a: Action, rest: seq<Action>)
    ensures forall p: Action -> bool :: Count([a] + rest, p) == (if p(a) then 1 else 0) + Count(rest, p)
  {
    assert ([a] + rest)[1..] == rest;
  }

  /** Milliseconds spent in fixed waits. */
  function Waited(log: seq<Action>): nat
    decreases |log|
  {
    if log == [] then 0 else (if log[0].Wait? then log[0].ms else 0) + Waited(log[1..])
  }

  lemma {:induction false} WaitedAppend(a: seq<Action>, b: seq<Action>)
    ensures Waited(a + b) == Waited(a) + Waited(b)
    decreases |a|
  {
    if a == [] {
      assert a + b == b;
    } else {
      assert (a + b)[1..] == a[1..] + b;
      WaitedAppend(a[1..], b);
    }
  }

  /** The outcomes one presence check meets: whether the ping is answered,
      and, if it is not, whether the injection succeeds. */
  datatype Presence = Presence(pingOk: bool, injectOk: bool)

  /** `ensureContentScriptInjected(tab)`: ping; on a failed ping inject once
      and, if that worked, let the script settle. Injection errors are
      swallowed, so the result is only the log. */
  function EnsureContentScriptInjected(tab: TabId, presence: Presence): (log: seq<Action>)
    ensures |log| >= 1 && log[0] == Ping(tab)
    ensures Count(log, IsPing) == 1
    ensures Count(log, IsInject) == if presence.pingOk then 0 else 1
    ensures presence.pingOk ==> log == [Ping(tab)]
    ensures Count(log, IsSend) == 0 && Count(log, IsCreate) == 0 && Count(log, IsActivate) == 0
    ensures forall a :: a in log ==> a == Ping(tab) || a == Inject(tab) || a == Wait(1000)
  {
    var settle: seq<Action> := if presence.injectOk then [Wait(1000)] else [];
    CountCons(Wait(1000), []);
    assert [Wait(1000)] == [Wait(1000)] + [];
    var tail := if presence.pingOk then [] else [Inject(tab)] + settle;
    CountCons(Inject(tab), settle);
    CountCons(Ping(tab), tail);
    [Ping(tab)] + tail
  }

  /** The presence check waits 1 s exactly when the ping failed and the
      injection worked. */
  lemma InjectionSettles(tab: TabId, presence: Presence)
    ensures Waited(EnsureContentScriptInjected(tab, presence)) ==
              if !presence.pingOk && presence.injectOk then 1000 else 0
  {
    var settle: seq<Action> := if presence.injectOk then [Wait(1000)] else [];
    var tail := if presence.pingOk then [] else [Inject(tab)] + settle;
    assert Waited([Wait(1000)]) == 1000 by {
      assert [Wait(1000)][1..] == [];
    }
    WaitedAppend([Inject(tab)], settle);
    WaitedAppend([Ping(tab)], tail);
  }

  /** A `chrome.tabs.onUpdated` notification: the tab and its new status, if
      the change carries one. */
  datatype TabUpdate = TabUpdate(tab: TabId, status: Option<string>)

  predicate CompletesTab(u: TabUpdate, tab: TabId)
  {
    u.tab == tab && u.status == Some("complete")
  }

  datatype LoadWait = Completed(index: nat) | TimedOut

  /** `waitForTabLoad(tab)`, given the notifications that arrive before the
      timeout. It never fails: it ends at the first notification that the
      tab completed, or at the timeout. */
  function WaitForTabLoad(tab: TabId, updates: seq<TabUpdate>): (r: LoadWait)
    ensures r.Completed? ==> r.index < |updates| && CompletesTab(updates[r.index], tab)
    ensures r.Completed? ==> forall j :: 0 <= j < r.index ==> !CompletesTab(updates[j], tab)
    ensures r.TimedOut? <==> forall j :: 0 <= j < |updates| ==> !CompletesTab(updates[j], tab)
  {
    var first := FirstIndex(updates, (u: TabUpdate) => CompletesTab(u, tab));
    if first.Some? then Completed(first.value) else TimedOut
  }

  /** The pause after a "complete" update, for the page to initialise. */
  const SettleMs := 2000

  /** What tab acquisition meets: the open tabs, whether activating an
      existing tab succeeds (`false` when `chrome.tabs.update` rejects), the
      id of a tab it creates (`None` when creation fails), the load
      notifications for a created tab, and the presence check's outcomes. */
  datatype TabEnv = TabEnv(
    open: seq<Tab>,
    activated: bool,
    created: Option<TabId>,
    updates: seq<TabUpdate>,
    presence: Presence)

  datatype Acquired = Acquired(tab: Option<TabId>, log: seq<Action>)

  /** The counts of a new tab's log: its creation, then the load wait and
      the settle pause, which no counted predicate matches, then the
      presence check. */
  lemma CreatedCounts(id: TabId, settle: seq<Action>, check: seq<Action>, p: Action -> bool)
    requires !p(AwaitLoad(id)) && !p(Wait(SettleMs))
    requires settle == [] || settle == [Wait(SettleMs)]
    ensures Count([Create(NewTabUrl, true), AwaitLoad(id)] + settle + check, p) ==
              (if p(Create(NewTabUrl, true)) then 1 else 0) + Count(check, p)
  {
    var head := [Create(NewTabUrl, true), AwaitLoad(id)];
    CountAppend(head + settle, check, p);
    CountAppend(head, settle, p);
    assert head[1..][1..] == [];
    if settle != [] {
      assert settle[1..] == [];
    }
  }

  /** Activating a tab after its presence check adds nothing that `p`
      counts. */
  lemma ActivatedCounts(id: TabId, check: seq<Action>, p: Action -> bool)
    requires !p(Activate(id))
    ensures Count(check + [Activate(id)], p) == Count(check, p)
  {
    CountAppend(check, [Activate(id)], p);
    assert [Activate(id)][1..] == [];
  }

  /** `ensureChatGptTab()`. */
  function EnsureChatGptTab(env: TabEnv): (r: Acquired)
    // an existing tab on either domain: the first one is checked, then activated; nothing is
    // created, and a rejected activation throws, so no tab is obtained
    ensures QueryTargetTabs(env.open) != [] ==>
              var t := QueryTargetTabs(env.open)[0];
              && r.tab == (if env.activated then Some(t.id) else None)
              && r.log == EnsureContentScriptInjected(t.id, env.presence) + [Activate(t.id)]
              && Count(r.log, IsCreate) == 0
    // no such tab: exactly one is created, in the foreground at the fixed address, and the check
    // runs on it once it has loaded; it is not activated separately
    ensures QueryTargetTabs(env.open) == [] ==>
              && r.tab == env.created
              && |r.log| >= 1 && r.log[0] == Create(NewTabUrl, true)
              && Count(r.log, IsCreate) == 1
              && Count(r.log, IsActivate) == 0
              && (env.created.Some? ==> |r.log| >= 2 && r.log[1] == AwaitLoad(env.created.value))
    // one ping unless creating a tab failed
    // the created tab, once loaded (and given the settle pause after a "complete" update), is the one checked
    ensures QueryTargetTabs(env.open) == [] && env.created.Some? ==>
              var id := env.created.value;
              r.log == [Create(NewTabUrl, true), AwaitLoad(id)]
                       + (if WaitForTabLoad(id, env.updates).Completed? then [Wait(SettleMs)] else [])
                       + EnsureContentScriptInjected(id, env.presence)
    ensures QueryTargetTabs(env.open) == [] && env.created.None? ==> r.log == [Create(NewTabUrl, true)]
    ensures Count(r.log, IsPing) == (if r.tab.Some? || QueryTargetTabs(env.open) != [] then 1 else 0)
    ensures Count(r.log, IsSend) == 0
  {
    var matching := QueryTargetTabs(env.open);
    if matching != [] then
      var id := matching[0].id;
      var check := EnsureContentScriptInjected(id, env.presence);
      ActivatedCounts(id, check, IsCreate);
      ActivatedCounts(id, check, IsPing);
      ActivatedCounts(id, check, IsSend);
      Acquired(if env.activated then Some(id) else None, check + [Activate(id)])
    else
      match env.created
      case None =>
        Acquired(None, [Create(NewTabUrl, true)])
      case Some(id) =>
        var settle := if WaitForTabLoad(id, env.updates).Completed? then [Wait(SettleMs)] else [];
        var check := EnsureContentScriptInjected(id, env.presence);
        var log := [Create(NewTabUrl, true), AwaitLoad(id)] + settle + check;
        CreatedCounts(id, settle, check, IsCreate);
        CreatedCounts(id, settle, check, IsActivate);
        CreatedCounts(id, settle, check, IsPing);
        CreatedCounts(id, settle, check, IsSend);
        Acquired(Some(id), log)
  }
}

=== FILE: pickers.dfy ===
/** The page adapter's element pickers. Each one walks a fixed, ordered
    table of CSS selectors and returns the first element that satisfies a
    predicate. Which elements a selector matches is the browser's business:
    the pickers receive the query results as input, one entry per selector
    (and, for the polling pickers, one list of entries per poll made before
    the timeout). */
module Pickers {
  import opened Wrappers
  import opened Text
  import opened Search

  /** What the pickers observe about a DOM element. `tag` is the upper-case
      `tagName`; `accept` is "" when the attribute is absent; `visible` is
      `offsetParent !== null`; `hasSvg` is `querySelector('svg') !== null`;
      `buttonType` is a button's `type`; `editable` is
      `contentEditable === 'true' || isContentEditable`; `clickable` says
      the element has a `click` method, which HTML elements have and SVG
      elements (such as an icon inside a button) do not. */
  datatype Element = Element(
    tag: string,
    accept: string,
    disabled: bool,
    visible: bool,
    hasSvg: bool,
    buttonType: string,
    ariaLabel: Option<string>,
    editable: bool,
    clickable: bool)

  // ---------------------------------------------------------------------
  // findAttachmentButton
  // ---------------------------------------------------------------------

  /** The fourth selector matches the paperclip `svg`, not its button, and
      the fifth matches whatever carries the test id, `svg` or not. */
  const AttachmentSelectors := [
    "button[aria-label*=\"attach\" i]",
    "button[aria-label*=\"file\" i]",
    "button[title*=\"attach\" i]",
    "button svg[class*=\"paperclip\"]",
    "[data-testid*=\"attach\"]"
  ]

  predicate Found(hit: Option<Element>)
  {
    hit.Some?
  }

  /** `hits[i]` is `document.querySelector(AttachmentSelectors[i])`. The
      result is the index of the selector whose element is returned. */
  function FindAttachmentButton(hits: seq<Option<Element>>): (r: Option<nat>)
    requires |hits| == |AttachmentSelectors|
    ensures r.Some? ==> r.value < |hits| && hits[r.value].Some?
    ensures r.Some? ==> forall j :: 0 <= j < r.value ==> hits[j].None?
    ensures r.None? <==> forall j :: 0 <= j < |hits| ==> hits[j].None?
  {
    FirstIndex(hits, Found)
  }

  // ---------------------------------------------------------------------
  // findFileInput
  // ---------------------------------------------------------------------

  predicate AcceptsImage(e: Element)
  {
    Contains(e.accept, "image")
  }

  /** `i` is the element one poll of findFileInput picks from the file
      inputs it found: the first one accepting images, else the first one. */
  ghost predicate FilePick(inputs: seq<Element>, i: nat)
  {
    && i < |inputs|
    && (|| (AcceptsImage(inputs[i]) && forall j :: 0 <= j < i ==> !AcceptsImage(inputs[j]))
        || (i == 0 && forall j :: 0 <= j < |inputs| ==> !AcceptsImage(inputs[j])))
  }

  /** `polls[k]` lists the `input[type="file"]` elements found by the k-th
      poll before the timeout. The first poll that finds any file input
      decides the result; no poll finding one gives `None`. */
  method FindFileInput(polls: seq<seq<Element>>) returns (r: Option<Pos>)
    ensures r.None? <==> forall k :: 0 <= k < |polls| ==> polls[k] == []
    ensures r.Some? ==> r.value.row < |polls| && FilePick(polls[r.value.row], r.value.col)
    ensures r.Some? ==> forall k :: 0 <= k < r.value.row ==> polls[k] == []
  {
    var k := 0;
    while k < |polls|
      invariant 0 <= k <= |polls|
      invariant forall k' :: 0 <= k' < k ==> polls[k'] == []
    {
      var inputs := polls[k];
      var i := 0;
      while i < |inputs|
        invariant 0 <= i <= |inputs|
        invariant forall j :: 0 <= j < i ==> !AcceptsImage(inputs[j])
      {
        if AcceptsImage(inputs[i]) {
          return Some(Pos(k, i));
        }
        i := i + 1;
      }
      if |inputs| > 0 {
        return Some(Pos(k, 0));
      }
      k := k + 1;
    }
    return None;
  }

  // ---------------------------------------------------------------------
  // findInputField
  // ---------------------------------------------------------------------

  const InputFieldSelectors := [
    "#prompt-textarea",
    "[data-id=\"root\"] textarea",
    "form textarea",
    "[contenteditable=\"true\"][data-placeholder]",
    "form [contenteditable=\"true\"]",
    "[role=\"textbox\"]",
    "div[contenteditable=\"true\"]"
  ]

  /** A selector's `querySelector` result qualifies when it exists and is
      rendered. Only the first element a selector matches is looked at. */
  predicate VisibleHit(hit: Option<Element>)
  {
    hit.Some? && hit.value.visible
  }

  /** `polls[k][i]` is `document.querySelector(InputFieldSelectors[i])` at
      the k-th poll before the timeout. */
  method FindInputField(polls: seq<seq<Option<Element>>>) returns (r: Option<Pos>)
    requires forall k :: 0 <= k < |polls| ==> |polls[k]| == |InputFieldSelectors|
    ensures r.None? <==> Nowhere(polls, VisibleHit)
    ensures r.Some? ==> FirstInOrder(polls, VisibleHit, r.value)
  {
    r := Scan(polls, VisibleHit);
  }

  // ---------------------------------------------------------------------
  // clickSendButton
  // ---------------------------------------------------------------------

  /** The sixth selector matches `svg` icons, not buttons; the others match
      buttons. */
  const SendButtonSelectors := [
    "button[data-testid=\"send-button\"]",
    "button[data-testid=\"fruitjuice-send-button\"]",
    "button[aria-label*=\"Send\" i]",
    "button[aria-label*=\"send\" i]",
    "form button[type=\"submit\"]",
    "button svg[class*=\"send\"]",
    "form button:not([disabled])"
  ]

  predicate Usable(b: Element)
  {
    !b.disabled && b.visible
  }

  /** An icon, a submit type, or an accessible label mentioning "send". */
  predicate LooksLikeSend(b: Element)
  {
    || b.hasSvg
    || b.buttonType == "submit"
    || (b.ariaLabel.Some? && Contains(AsciiLower(b.ariaLabel.value), "send"))
  }

  predicate SendCandidate(b: Element)
  {
    Usable(b) && LooksLikeSend(b)
  }

  /** The fallback accepts any usable button that contains an icon. */
  predicate FormCandidate(b: Element)
  {
    Usable(b) && b.hasSvg
  }

  /** `ClickThrew` is a candidate without a `click` method: calling it
      throws a TypeError instead of pressing anything. */
  datatype SendClick = Clicked(at: Pos) | ClickThrew(at: Pos) | ClickedInForm(index: nat) | NoSendButton

  /** `c` is what pressing send does on this page: the first usable
      send-looking match in selector, then document, order is clicked, and
      the click throws iff it has no `click` method; failing that, the
      first usable icon button of the form is clicked; failing that,
      nothing is. Exactly one `c` satisfies it for given `matches` and
      `form`. */
  ghost predicate SendClickSpec(matches: seq<seq<Element>>, form: Option<seq<Element>>, c: SendClick)
  {
    && (c.Clicked? || c.ClickThrew? <==> !Nowhere(matches, SendCandidate))
    && (c.Clicked? || c.ClickThrew? ==>
          && FirstInOrder(matches, SendCandidate, c.at)
          && (c.Clicked? <==> matches[c.at.row][c.at.col].clickable))
    && (c.ClickedInForm? ==>
          && form.Some? && c.index < |form.value| && FormCandidate(form.value[c.index])
          && forall j :: 0 <= j < c.index ==> !FormCandidate(form.value[j]))
    && (c.NoSendButton? <==>
          && Nowhere(matches, SendCandidate)
          && (form.None? || forall j :: 0 <= j < |form.value| ==> !FormCandidate(form.value[j])))
  }

  /** The page decides what pressing send does: two outcomes that both
      satisfy `SendClickSpec` are the same. */
  lemma SendClickDetermined(matches: seq<seq<Element>>, form: Option<seq<Element>>, c: SendClick, d: SendClick)
    requires SendClickSpec(matches, form, c) && SendClickSpec(matches, form, d)
    ensures c == d
  {
  }

  /** `matches[i]` is `querySelectorAll(SendButtonSelectors[i])` in document
      order; `form` is the buttons of the first form, if there is a form.
      The element clicked is the first candidate in selector order, then
      document order, and the click throws when that element has no
      `click`; failing that, the first usable icon button of the form (a
      `button`, so an HTML element); failing that, nothing is clicked and
      nothing is thrown. */
  method ClickSendButton(matches: seq<seq<Element>>, form: Option<seq<Element>>) returns (r: SendClick)
    requires |matches| == |SendButtonSelectors|
    ensures r.Clicked? || r.ClickThrew? <==> !Nowhere(matches, SendCandidate)
    ensures r.Clicked? || r.ClickThrew? ==> FirstInOrder(matches, SendCandidate, r.at)
    // the click throws exactly when the first candidate has no click method
    ensures r.Clicked? ==> matches[r.at.row][r.at.col].clickable
    ensures r.ClickThrew? ==> !matches[r.at.row][r.at.col].clickable
    ensures r.ClickedInForm? ==> form.Some? && r.index < |form.value| && FormCandidate(form.value[r.index])
    ensures r.ClickedInForm? ==> forall j :: 0 <= j < r.index ==> !FormCandidate(form.value[j])
    ensures r.NoSendButton? <==>
              Nowhere(matches, SendCandidate)
              && (form.None? || forall j :: 0 <= j < |form.value| ==> !FormCandidate(form.value[j]))
    ensures SendClickSpec(matches, form, r)
  {
    var hit := Scan(matches, SendCandidate);
    if hit.Some? {
      if !matches[hit.value.row][hit.value.col].clickable {
        return ClickThrew(hit.value);
      }
      return Clicked(hit.value);
    }
    if form.Some? {
      var i := FirstIndex(form.value, FormCandidate);
      if i.Some? {
        return ClickedInForm(i.value);
      }
    }
    return NoSendButton;
  }
}

=== FILE: popup.dfy ===
/** The control panel's settings handling (`getSettings`, `saveSettings`,
    `loadSettings`) and its shortcut display (`formatShortcut`). A control
    that is missing from the panel is `None`. */
module Popup {
  import opened Wrappers
  import opened Text
  import opened Protocol
  import opened Search

  /** The target-address `<select>`: its option values and the index of the
      selected option, if any. */
  datatype Select = Select(options: seq<string>, selected: Option<nat>)

  /** A select's `value`: the selected option's value, or "" when no option
      is selected. */
  function SelectValue(s: Select): string
  {
    if s.selected.Some? && s.selected.value < |s.options| then s.options[s.selected.value] else ""
  }

  predicate HasValue(v: string, option: string)
  {
    option == v
  }

  /** Assigning a select's `value` selects the first option with that value,
      or no option at all. */
  function SetSelectValue(s: Select, v: string): (r: Select)
    ensures r.options == s.options
    ensures v in s.options ==> SelectValue(r) == v
    ensures v !in s.options ==> SelectValue(r) == ""
  {
    var i := FirstIndex(s.options, (o: string) => HasValue(v, o));
    Select(s.options, i)
  }

  /** The four settings controls as found in the panel. */
  datatype Controls = Controls(
    autoSend: Option<bool>,
    showNotifications: Option<bool>,
    switchTab: Option<bool>,
    targetUrl: Option<Select>)

  /** A stored settings record: each field may be missing. */
  datatype Stored = Stored(
    autoSend: Option<bool>,
    showNotifications: Option<bool>,
    switchTab: Option<bool>,
    targetUrl: Option<string>)

  function Or<T>(v: Option<T>, fallback: T): T
  {
    if v.Some? then v.value else fallback
  }

  /** `getSettings()`: read each control, falling back to the default
      when the control is missing. */
  function GetSettings(c: Controls): (s: Settings)
    ensures c.autoSend.None? ==> s.autoSend == DefaultSettings.autoSend
    ensures c.showNotifications.None? ==> s.showNotifications == DefaultSettings.showNotifications
    ensures c.switchTab.None? ==> s.switchTab == DefaultSettings.switchTab
    ensures c.targetUrl.None? ==> s.targetUrl == DefaultSettings.targetUrl
    ensures c.autoSend.Some? ==> s.autoSend == c.autoSend.value
    ensures c.showNotifications.Some? ==> s.showNotifications == c.showNotifications.value
    ensures c.switchTab.Some? ==> s.switchTab == c.switchTab.value
    ensures c.targetUrl.Some? ==> s.targetUrl == SelectValue(c.targetUrl.value)
  {
    Settings(
      Or(c.autoSend, true),
      Or(c.showNotifications, true),
      Or(c.switchTab, true),
      if c.targetUrl.Some? then SelectValue(c.targetUrl.value) else DefaultTargetUrl)
  }

  /** A stored record with every field present. */
  function Complete(s: Settings): Stored
  {
    Stored(Some(s.autoSend), Some(s.showNotifications), Some(s.switchTab), Some(s.targetUrl))
  }

  /** Every field of a stored record is present. */
  predicate Full(st: Stored)
  {
    st.autoSend.Some? && st.showNotifications.Some? && st.switchTab.Some? && st.targetUrl.Some?
  }

  /** `saveSettings()`: what it stores. The record is full, so no field
      falls back to a default when read, and it stands for exactly what the
      panel shows. */
  function SaveSettings(c: Controls): (st: Stored)
    ensures Full(st)
    ensures WithDefaults(Some(st)) == GetSettings(c)
  {
    Complete(GetSettings(c))
  }

  /** The settings a stored record stands for once missing fields (or a
      missing record) take their defaults. */
  function WithDefaults(stored: Option<Stored>): (s: Settings)
    ensures stored.None? ==> s == DefaultSettings
    // a present field is taken as stored
    ensures stored.Some? && stored.value.autoSend.Some? ==> s.autoSend == stored.value.autoSend.value
    ensures stored.Some? && stored.value.showNotifications.Some? ==>
              s.showNotifications == stored.value.showNotifications.value
    ensures stored.Some? && stored.value.switchTab.Some? ==> s.switchTab == stored.value.switchTab.value
    ensures stored.Some? && stored.value.targetUrl.Some? ==> s.targetUrl == stored.value.targetUrl.value
    // a missing field takes its default
    ensures stored.Some? && stored.value.autoSend.None? ==> s.autoSend == DefaultSettings.autoSend
    ensures stored.Some? && stored.value.showNotifications.None? ==>
              s.showNotifications == DefaultSettings.showNotifications
    ensures stored.Some? && stored.value.switchTab.None? ==> s.switchTab == DefaultSettings.switchTab
    ensures stored.Some? && stored.value.targetUrl.None? ==> s.targetUrl == DefaultSettings.targetUrl
    ensures forall st: Settings :: stored == Some(Complete(st)) ==> s == st
  {
    var r := if stored.Some? then stored.value else Stored(None, None, None, None);
    Settings(Or(r.autoSend, true), Or(r.showNotifications, true), Or(r.switchTab, true), Or(r.targetUrl, DefaultTargetUrl))
  }

  /** `loadSettings()`: write the stored record, defaulted field by field,
      into the controls that exist; missing controls stay missing. */
  function LoadSettings(c: Controls, stored: Option<Stored>): (r: Controls)
    ensures r.autoSend.Some? <==> c.autoSend.Some?
    ensures r.showNotifications.Some? <==> c.showNotifications.Some?
    ensures r.switchTab.Some? <==> c.switchTab.Some?
    ensures r.targetUrl.Some? <==> c.targetUrl.Some?
    ensures r.targetUrl.Some? ==> r.targetUrl.value.options == c.targetUrl.value.options
    // each existing control shows the defaulted stored value
    ensures r.autoSend.Some? ==> r.autoSend.value == WithDefaults(stored).autoSend
    ensures r.showNotifications.Some? ==> r.showNotifications.value == WithDefaults(stored).showNotifications
    ensures r.switchTab.Some? ==> r.switchTab.value == WithDefaults(stored).switchTab
    // the select takes the first option with the stored address, or none
    ensures r.targetUrl.Some? ==>
              (WithDefaults(stored).targetUrl in c.targetUrl.value.options ==>
                 SelectValue(r.targetUrl.value) == WithDefaults(stored).targetUrl)
    ensures r.targetUrl.Some? ==>
              (WithDefaults(stored).targetUrl !in c.targetUrl.value.options ==> SelectValue(r.targetUrl.value) == "")
  {
    var s := WithDefaults(stored);
    Controls(
      if c.autoSend.Some? then Some(s.autoSend) else None,
      if c.showNotifications.Some? then Some(s.showNotifications) else None,
      if c.switchTab.Some? then Some(s.switchTab) else None,
      if c.targetUrl.Some? then Some(SetSelectValue(c.targetUrl.value, s.targetUrl)) else None)
  }

  predicate AllPresent(c: Controls)
  {
    c.autoSend.Some? && c.showNotifications.Some? && c.switchTab.Some? && c.targetUrl.Some?
  }

  /** Loading then reading back: with every control present and the stored
      address among the select's options, the panel reports exactly the
      defaulted stored record, so a complete record comes back unchanged. */
  lemma LoadThenGet(c: Controls, stored: Option<Stored>)
    requires AllPresent(c)
    requires WithDefaults(stored).targetUrl in c.targetUrl.value.options
    ensures GetSettings(LoadSettings(c, stored)) == WithDefaults(stored)
    ensures forall st: Settings :: stored == Some(Complete(st)) ==> GetSettings(LoadSettings(c, stored)) == st
  {
  }

  /** Saving then loading changes nothing the panel reports, whatever
      controls exist. */
  lemma SaveThenLoad(c: Controls)
    ensures GetSettings(LoadSettings(c, Some(SaveSettings(c)))) == GetSettings(c)
  {
    if c.targetUrl.Some? {
      var sel := c.targetUrl.value;
      var v := SelectValue(sel);
      if v !in sel.options {
        assert v == "";
      }
    }
  }

  // ---------------------------------------------------------------------
  // formatShortcut
  // ---------------------------------------------------------------------

  const ControlSymbol := "\U{2303}"
  const ShiftSymbol := "\U{21E7}"
  const OptionSymbol := "\U{2325}"

  /** `formatShortcut(shortcut)`: five first-occurrence replacements in turn. */
  function FormatShortcut(shortcut: string): string
  {
    var s1 := ReplaceFirst(shortcut, "MacCtrl", ControlSymbol);
    var s2 := ReplaceFirst(s1, "Ctrl", "Ctrl");
    var s3 := ReplaceFirst(s2, "Shift", ShiftSymbol);
    var s4 := ReplaceFirst(s3, "Alt", OptionSymbol);
    ReplaceFirst(s4, "+", " + ")
  }

  /** The "Ctrl" step is the identity, so formatting is the other four
      replacements. */
  lemma FormatSkipsCtrl(shortcut: string)
    ensures FormatShortcut(shortcut) ==
              ReplaceFirst(ReplaceFirst(ReplaceFirst(ReplaceFirst(shortcut, "MacCtrl", ControlSymbol), "Shift", ShiftSymbol), "Alt", OptionSymbol), "+", " + ")
  {
    ReplaceBySelf(ReplaceFirst(shortcut, "MacCtrl", ControlSymbol), "Ctrl");
  }

  /** A shortcut mentioning none of the replaced names and no "+" is shown
      as it is. */
  lemma FormatLeavesPlainText(shortcut: string)
    requires !Contains(shortcut, "MacCtrl") && !Contains(shortcut, "Ctrl") && !Contains(shortcut, "Shift")
    requires !Contains(shortcut, "Alt") && !Contains(shortcut, "+")
    ensures FormatShortcut(shortcut) == shortcut
  {
  }

  /** Worked example, first half: "Ctrl+Shift+S" has no "MacCtrl", and its
      "Shift" becomes the shift symbol. */
  lemma CtrlShiftSSymbols(s: string)
    requires s == "Ctrl+Shift+S"
    ensures ReplaceFirst(s, "MacCtrl", ControlSymbol) == s
    ensures ReplaceFirst(s, "Shift", ShiftSymbol) == "Ctrl+" + ShiftSymbol + "+S"
  {
    ReplaceAbsent(s, "MacCtrl", ControlSymbol);
    assert s[5..10] == "Shift";
    ReplaceAt(s, "Shift", ShiftSymbol, 5);
  }

  /** Worked example, second half: no "Alt", and only the first "+" is
      spaced out. */
  lemma CtrlShiftSSpacing(s: string)
    requires s == "Ctrl+" + ShiftSymbol + "+S"
    ensures ReplaceFirst(s, "Alt", OptionSymbol) == s
    ensures ReplaceFirst(s, "+", " + ") == "Ctrl + " + ShiftSymbol + "+S"
  {
    ReplaceAbsent(s, "Alt", OptionSymbol);
    assert s[4..5] == "+";
    ReplaceAt(s, "+", " + ", 4);
  }

  /** "Ctrl+Shift+S" is displayed as "Ctrl + ⇧+S": every replacement is of
      the first occurrence only, so the second "+" keeps no spaces. */
  lemma FormatCtrlShiftS(s: string)
    requires s == "Ctrl+Shift+S"
    ensures FormatShortcut(s) == "Ctrl + " + ShiftSymbol + "+S"
  {
    CtrlShiftSSymbols(s);
    ReplaceBySelf(s, "Ctrl");
    CtrlShiftSSpacing("Ctrl+" + ShiftSymbol + "+S");
  }
}

=== FILE: protocol.dfy ===
/** The records exchanged between the control panel, the background
    coordinator and the page adapter. */
module Protocol {
  import opened Wrappers

  /** The user-facing options record shared by the control panel and the
      page adapter. */
  datatype Settings = Settings(autoSend: bool, showNotifications: bool, switchTab: bool, targetUrl: string)

  const DefaultTargetUrl := "https://chatgpt.com/"

  /** The page adapter's initial settings, which are also the control
      panel's fallbacks for absent controls and missing stored fields. */
  const DefaultSettings := Settings(true, true, true, DefaultTargetUrl)

  /** Message types understood by the page adapter. */
  const PingType := "PING"
  const UploadScreenshotType := "UPLOAD_SCREENSHOT"
  const SendTextType := "SEND_TEXT"

  /** A message to the page adapter: its `type`, the optional `dataUrl`,
      `text` and `settings` fields. */
  datatype Message = Message(kind: string, dataUrl: Option<string>, text: Option<string>, settings: Option<Settings>)

  /** JavaScript truthiness of an optional string field. */
  predicate Truthy(f: Option<string>)
  {
    f.Some? && f.value != ""
  }

  /** The `status` of a response to a runtime message. */
  datatype Response = Response(status: string)
}

=== FILE: search.dfy ===
/** "The first element, in priority order, that satisfies a predicate":
    the shape of every picker and fallback chain in the extension. */
module Search {
  import opened Wrappers

  /** No element of any row of `m` satisfies `p`. */
  ghost predicate Nowhere<T>(m: seq<seq<T>>, p: T -> bool)
  {
    forall k, j :: 0 <= k < |m| && 0 <= j < |m[k]| ==> !p(m[k][j])
  }

  /** `pos` is the first position of `m`, rows first, whose element satisfies `p`. */
  ghost predicate FirstInOrder<T>(m: seq<seq<T>>, p: T -> bool, pos: Pos)
  {
    && pos.row < |m| && pos.col < |m[pos.row]|
    && p(m[pos.row][pos.col])
    && forall k, j :: 0 <= k < |m| && 0 <= j < |m[k]| && (k < pos.row || (k == pos.row && j < pos.col)) ==> !p(m[k][j])
  }

  /** Scan rows in order and each row's elements in order, stopping at the
      first element that satisfies `p`. */
  method Scan<T>(m: seq<seq<T>>, p: T -> bool) returns (r: Option<Pos>)
    ensures r.None? <==> Nowhere(m, p)
    ensures r.Some? ==> FirstInOrder(m, p, r.value)
  {
    var k := 0;
    while k < |m|
      invariant 0 <= k <= |m|
      invariant forall k', j :: 0 <= k' < k && 0 <= j < |m[k']| ==> !p(m[k'][j])
    {
      var j := 0;
      while j < |m[k]|
        invariant 0 <= j <= |m[k]|
        invariant forall j' :: 0 <= j' < j ==> !p(m[k][j'])
      {
        if p(m[k][j]) {
          return Some(Pos(k, j));
        }
        j := j + 1;
      }
      k := k + 1;
    }
    return None;
  }

  /** The first index of `xs`, from `k` on, whose element satisfies `p`. */
  function FirstIndexFrom<T>(xs: seq<T>, p: T -> bool, k: nat): (r: Option<nat>)
    ensures r.Some? ==> k <= r.value < |xs| && p(xs[r.value])
    ensures r.Some? ==> forall j :: k <= j < r.value ==> !p(xs[j])
    ensures r.None? ==> forall j :: k <= j < |xs| ==> !p(xs[j])
    decreases |xs| - k
  {
    if k >= |xs| then None
    else if p(xs[k]) then Some(k)
    else FirstIndexFrom(xs, p, k + 1)
  }

  function FirstIndex<T>(xs: seq<T>, p: T -> bool): (r: Option<nat>)
    ensures r.Some? ==> r.value < |xs| && p(xs[r.value]) && forall j :: 0 <= j < r.value ==> !p(xs[j])
    ensures r.None? <==> forall j :: 0 <= j < |xs| ==> !p(xs[j])
  {
    FirstIndexFrom(xs, p, 0)
  }
}

=== FILE: text.dfy ===
/** The JavaScript string operations the extension relies on:
    `includes`, `indexOf`, first-occurrence `replace`, `substring(0, n)`,
    `trim` and (ASCII) `toLowerCase`. */
module Text {
  import opened Wrappers

  /** `needle` occurs in `s` starting at index `i`. */
  predicate OccursAt(s: string, needle: string, i: nat)
  {
    i + |needle| <= |s| && s[i..i + |needle|] == needle
  }

  /** `i` is the first index at which `needle` occurs in `s`. */
  predicate FirstAt(s: string, needle: string, i: nat)
  {
    OccursAt(s, needle, i) && forall j: nat :: j < i ==> !OccursAt(s, needle, j)
  }

  /** Search for `needle` from index `k` onwards. */
  function IndexFrom(s: string, needle: string, k: nat): (r: Option<nat>)
    ensures r.Some? ==> k <= r.value && OccursAt(s, needle, r.value)
    ensures r.Some? ==> forall j: nat :: k <= j < r.value ==> !OccursAt(s, needle, j)
    ensures r.None? ==> forall j: nat :: k <= j ==> !OccursAt(s, needle, j)
    decreases |s| - k
  {
    if k + |needle| > |s| then None
    else if s[k..k + |needle|] == needle then Some(k)
    else IndexFrom(s, needle, k + 1)
  }

  /** `String.prototype.indexOf`, with `None` for -1. */
  function IndexOf(s: string, needle: string): (r: Option<nat>)
    ensures r.Some? ==> FirstAt(s, needle, r.value)
    ensures r.None? ==> forall j: nat :: !OccursAt(s, needle, j)
  {
    IndexFrom(s, needle, 0)
  }

  /** `String.prototype.includes`. */
  predicate Contains(s: string, needle: string)
  {
    IndexOf(s, needle).Some?
  }

  lemma ContainsAt(s: string, needle: string, i: nat)
    requires OccursAt(s, needle, i)
    ensures Contains(s, needle)
  {
  }

  /** `String.prototype.replace` with a string pattern: only the first
      occurrence is replaced, and a string without the pattern is returned
      unchanged. The replacement is inserted literally, which is what
      JavaScript does for a replacement without `$`: it expands `$&`, `$1`
      and `$$`. */
  function ReplaceFirst(s: string, pattern: string, replacement: string): (r: string)
    ensures !Contains(s, pattern) ==> r == s
    ensures forall i: nat {:trigger FirstAt(s, pattern, i)} :: FirstAt(s, pattern, i) ==>
              r == s[..i] + replacement + s[i + |pattern|..]
  {
    match IndexOf(s, pattern)
    case None => s
    case Some(i) => s[..i] + replacement + s[i + |pattern|..]
  }

  /** A pattern whose first character never appears in `s` leaves it unchanged. */
  lemma ReplaceAbsent(s: string, pattern: string, replacement: string)
    requires |pattern| > 0 && pattern[0] !in s
    ensures ReplaceFirst(s, pattern, replacement) == s
  {
  }

  /** An occurrence with no earlier copy of the pattern's first character is
      the one replaced. */
  lemma ReplaceAt(s: string, pattern: string, replacement: string, i: nat)
    requires |pattern| > 0 && OccursAt(s, pattern, i) && pattern[0] !in s[..i]
    ensures ReplaceFirst(s, pattern, replacement) == s[..i] + replacement + s[i + |pattern|..]
  {
    assert FirstAt(s, pattern, i);
  }

  /** Replacing a pattern by itself changes nothing. */
  lemma ReplaceBySelf(s: string, pattern: string)
    ensures ReplaceFirst(s, pattern, pattern) == s
  {
    match IndexOf(s, pattern)
    case None =>
    case Some(i) =>
      assert s[i..i + |pattern|] == pattern;
      assert s == s[..i] + s[i..i + |pattern|] + s[i + |pattern|..];
  }

  /** `s.substring(0, n)` for a non-negative `n`. */
  function Prefix(s: string, n: nat): (r: string)
    ensures |r| == if |s| <= n then |s| else n
    ensures r == s[..|r|]
  {
    if |s| <= n then s else s[..n]
  }

  /** The single code points among the ECMAScript WhiteSpace and
      LineTerminator characters; the range U+2000..U+200A is the rest. */
  const WhitespaceChars: set<char> := {
    '\t', '\n', '\U{000B}', '\U{000C}', '\r', ' ', '\U{00A0}', '\U{1680}',
    '\U{2028}', '\U{2029}', '\U{202F}', '\U{205F}', '\U{3000}', '\U{FEFF}'
  }

  /** The characters `String.prototype.trim` removes. */
  predicate IsWhitespace(c: char)
  {
    c in WhitespaceChars || '\U{2000}' <= c <= '\U{200A}'
  }

  function TrimStart(s: string): (r: string)
    ensures |r| <= |s| && r == s[|s| - |r|..]
    ensures forall i :: 0 <= i < |s| - |r| ==> IsWhitespace(s[i])
    ensures |r| > 0 ==> !IsWhitespace(r[0])
  {
    if |s| > 0 && IsWhitespace(s[0]) then TrimStart(s[1..]) else s
  }

  function TrimEnd(s: string): (r: string)
    ensures |r| <= |s| && r == s[..|r|]
    ensures forall i :: |r| <= i < |s| ==> IsWhitespace(s[i])
    ensures |r| > 0 ==> !IsWhitespace(r[|r| - 1])
  {
    if |s| > 0 && IsWhitespace(s[|s| - 1]) then TrimEnd(s[..|s| - 1]) else s
  }

  /** `String.prototype.trim`. */
  function Trim(s: string): (r: string)
  {
    TrimEnd(TrimStart(s))
  }

  /** Trimming yields a slice of `s`, starting where `TrimStart` stopped. */
  lemma TrimSlice(s: string)
    ensures var k := |s| - |TrimStart(s)|; k + |Trim(s)| <= |s| && Trim(s) == s[k..k + |Trim(s)|]
  {
    var a := TrimStart(s);
    var k := |s| - |a|;
    var r := TrimEnd(a);
    assert a == s[k..] && r == a[..|r|];
  }

  /** Trimming yields the empty string exactly when every character is
      whitespace; otherwise it yields a slice of `s` with no whitespace at
      either end. */
  lemma TrimSpec(s: string)
    ensures Trim(s) == "" <==> forall i :: 0 <= i < |s| ==> IsWhitespace(s[i])
    ensures Trim(s) != "" ==> !IsWhitespace(Trim(s)[0]) && !IsWhitespace(Trim(s)[|Trim(s)| - 1])
    ensures var k := |s| - |TrimStart(s)|; k + |Trim(s)| <= |s| && Trim(s) == s[k..k + |Trim(s)|]
  {
    TrimSlice(s);
    var a := TrimStart(s);
    var k := |s| - |a|;
    var r := TrimEnd(a);
    if r != [] {
      assert r[0] == a[0];
    }
  }

  function LowerChar(c: char): char
  {
    if 'A' <= c <= 'Z' then (c as int + 32) as char else c
  }

  /** `toLowerCase` restricted to ASCII letters. */
  function AsciiLower(s: string): (r: string)
    ensures |r| == |s|
    ensures forall i :: 0 <= i < |s| ==> r[i] == LowerChar(s[i])
  {
    if s == [] then [] else [LowerChar(s[0])] + AsciiLower(s[1..])
  }
}

=== FILE: upload.dfy ===
/** The page adapter's screenshot upload (`uploadScreenshot`): convert the
    data URL to a file, click an attachment button if one exists, hand the
    file to a file input if one appears, otherwise simulate a drop on each
    candidate target in turn. The DOM effects are reduced to what the
    upload observes. */
module Upload {
  import opened Wrappers
  import opened Search
  import opened Pickers

  /** Everything one upload observes of the page. `fileReady` is false when
      converting the data URL to a file fails. `dropChecks[i]` says whether
      an attachment preview showed up after the drop on the i-th existing
      target among form, editable region, textarea and body. The wait for
      the image preview is not an input: its result is never consulted. */
  datatype UploadEnv = UploadEnv(
    fileReady: bool,
    attachHits: seq<Option<Element>>,
    filePolls: seq<seq<Element>>,
    dropChecks: seq<bool>,
    sendMatches: seq<seq<Element>>,
    form: Option<seq<Element>>)

  predicate WellFormed(env: UploadEnv)
  {
    && |env.attachHits| == |AttachmentSelectors|
    && 1 <= |env.dropChecks| <= 4
    && |env.sendMatches| == |SendButtonSelectors|
  }

  /** How an upload ends. `AttachClickThrew` is clicking an attachment
      "button" that has no `click` method (the paperclip icon, say), which
      throws before any file input is looked for. A `send` of `ClickThrew` means the upload
      throws after handing over the file. */
  datatype UploadResult =
    | FileError
    | AttachClickThrew
    | ViaFileInput(input: Pos, send: Option<SendClick>)
    | ViaDrop(target: nat, send: Option<SendClick>)
    | Unsupported

  /** The upload resolves (rather than throwing). */
  predicate Succeeded(r: UploadResult)
  {
    && (r.ViaFileInput? || r.ViaDrop?)
    && (r.send.None? || !r.send.value.ClickThrew?)
  }

  /** The attachment click happens and throws. */
  predicate IconClicked(env: UploadEnv)
    requires WellFormed(env)
  {
    var found := FindAttachmentButton(env.attachHits);
    found.Some? && !env.attachHits[found.value].value.clickable
  }

  method UploadScreenshot(autoSend: bool, env: UploadEnv) returns (r: UploadResult)
    requires WellFormed(env)
    ensures !env.fileReady ==> r == FileError
    // an element without a click method found first: the click throws and nothing else is tried
    ensures r == AttachClickThrew <==> env.fileReady && IconClicked(env)
    // a file input, once found, is always used, and drag-and-drop is not tried
    ensures env.fileReady && !IconClicked(env) ==>
              (r.ViaFileInput? <==> exists k :: 0 <= k < |env.filePolls| && env.filePolls[k] != [])
    ensures r.ViaFileInput? ==>
              && r.input.row < |env.filePolls| && FilePick(env.filePolls[r.input.row], r.input.col)
              && forall k :: 0 <= k < r.input.row ==> env.filePolls[k] == []
    // drop targets are tried in order and the first one that shows a preview wins
    ensures r.ViaDrop? ==>
              && (forall k :: 0 <= k < |env.filePolls| ==> env.filePolls[k] == [])
              && r.target < |env.dropChecks| && env.dropChecks[r.target]
              && forall j :: 0 <= j < r.target ==> !env.dropChecks[j]
    ensures r == Unsupported <==>
              && env.fileReady && !IconClicked(env)
              && (forall k :: 0 <= k < |env.filePolls| ==> env.filePolls[k] == [])
              && (forall j :: 0 <= j < |env.dropChecks| ==> !env.dropChecks[j])
    // on success, send is pressed exactly when auto-send is on
    ensures r.ViaFileInput? ==> (r.send.Some? <==> autoSend)
    ensures r.ViaDrop? ==> (r.send.Some? <==> autoSend)
    // what pressing send did is fixed by the page
    ensures (r.ViaFileInput? || r.ViaDrop?) && r.send.Some? ==> SendClickSpec(env.sendMatches, env.form, r.send.value)
    // the upload resolves exactly when the file was handed over and no click threw
    ensures Succeeded(r) <==>
              && env.fileReady && !IconClicked(env) && (r.ViaFileInput? || r.ViaDrop?)
              && (autoSend ==> !r.send.value.ClickThrew?)
  {
    if !env.fileReady {
      return FileError;
    }
    // Clicking a real attachment button only changes what the file-input polls see.
    var attach := FindAttachmentButton(env.attachHits);
    if attach.Some? && !env.attachHits[attach.value].value.clickable {
      return AttachClickThrew;
    }
    var input := FindFileInput(env.filePolls);
    var send: Option<SendClick> := None;
    if input.Some? {
      if autoSend {
        var click := ClickSendButton(env.sendMatches, env.form);
        send := Some(click);
      }
      return ViaFileInput(input.value, send);
    }
    var target := FirstIndex(env.dropChecks, (checked: bool) => checked);
    if target.None? {
      return Unsupported;
    }
    if autoSend {
      var click := ClickSendButton(env.sendMatches, env.form);
      send := Some(click);
    }
    return ViaDrop(target.value, send);
  }
}

=== FILE: wrappers.dfy ===
/** Optional values, standing in for JavaScript's `null`/`undefined`. */
module Wrappers {

  datatype Option<+T> = None | Some(value: T)

  /** Position of an element in a two-level list: a poll round or selector
      (`row`) and an element of the list it returned (`col`). */
  datatype Pos = Pos(row: nat, col: nat)
}
